=== FILE: README.md ===
# Mzigo parcel pipeline — a Dafny model

This project models the parcel-tracking logic of the Mzigo delivery site.

The centre of the model is the **delivery pipeline**. A parcel moves through six ordered stages: `registered`, `dropOff`, `inTransit`, `delivered`, `notified` and `collected`. Exactly one stage is current, and every stage up to the current one is completed. The pipeline offers:

- one constructor;
- queries for the current step, the completed steps and the next step, whether a stage can be advanced to, a progress percentage and a status string;
- a one-stage `advance`;
- an administrative jump to any stage, forward or backward;
- an adapter from the older single-string statuses.

Beside the pipeline sit three groups of pure helpers:

- **String formatting:** truncation, word capitalisation and initials.
- **Form validators:** tracking number, phone, e-mail and required field.
- **Tracking-page helpers:**
  - the status given to a parcel stored without a pipeline, picked by a 32-bit string hash;
  - the location text and the badge colour for a status;
  - the case-insensitive lookup of an order.

Modules:

- `Wrappers`: the `Option` type.
- `Text`: the JavaScript string primitives the helpers rely on (ASCII case mapping, whitespace, `split`/`join`, a first-occurrence search that locates the '@' for the model of the email pattern, UTF-16 code units).
- `PipelineManager`: the stage engine.
- `Format`: the string-formatting helpers.
- `Validation`: the validators.
- `TrackPage`: the tracking-page helpers and the properties that cross into the pipeline.

The pipeline is an immutable record with one `Step` per stage, so every stage is always present. Every operation returns a new record. Reading the clock is replaced by a timestamp parameter. The well-formedness invariant is stated once:

- `PipelineManager.Canonical`: every stage carries its own id, label and order.
- `PipelineManager.CurrentIs`: `c` is the only current stage, and a stage is completed exactly when its rank is at most `c`'s.

Both transitions are proved to preserve this invariant. Completed stages stay completed under `advance` and under a forward jump. A backward jump is the one way to un-complete stages, and the model follows the code there: every stage after the target is reset.

## Model

| member | source | states |
|---|---|---|
| PipelineManager.Rank | app/utils/pipelineManager.ts:23-30 | a stage's order is its position in the canonical stage sequence |
| PipelineManager.RankOfStepsOrder | app/utils/pipelineManager.ts:23-30 | position and stage determine each other (the order is a bijection onto 0..5) |
| PipelineManager.Label | app/utils/pipelineManager.ts:35-42 | every display label is non-empty and starts with a capital letter |
| PipelineManager.LabelsDistinct | app/utils/pipelineManager.ts:35-42 | the six labels are pairwise distinct, and LegacyStepId maps each back to its stage |
| PipelineManager.Next | app/utils/pipelineManager.ts:23-30 | the following stage has order one higher; only `collected` has none |
| PipelineManager.Get | app/utils/pipelineManager.ts:135 | `pipelineStatus[id]` reads the stage's step; it has no contract of its own, and Put, PutGetIdentity and PipelineExtensionality state its meaning |
| PipelineManager.Put | app/utils/pipelineManager.ts:158-175 | a keyed spread update changes the one stage and leaves the other five as they were |
| PipelineManager.PutGetIdentity | app/utils/pipelineManager.ts:158-175 | writing back the step just read for a stage leaves the pipeline unchanged |
| PipelineManager.Values | app/utils/pipelineManager.ts:101 | `Object.values` lists the six stages in canonical order |
| PipelineManager.FindIndex | app/utils/pipelineManager.ts:102 | `find` stops at the first matching step; None means no step matches |
| PipelineManager.Find | app/utils/pipelineManager.ts:102 | `find(...) \|\| null` gives the first matching step, and None only when no step matches |
| PipelineManager.FindOnly | app/utils/pipelineManager.ts:102 | when exactly one element matches, `find` returns that element |
| PipelineManager.FindNone | app/utils/pipelineManager.ts:102 | when no element matches, `find(...) \|\| null` gives null |
| PipelineManager.Filter | app/utils/pipelineManager.ts:110 | `filter` returns exactly the elements satisfying the predicate, as many as the input has |
| PipelineManager.FilterMultiplicity | app/utils/pipelineManager.ts:110 | each element satisfying the predicate is kept exactly as often as it occurs in the input, and no other element is kept |
| PipelineManager.FilterKeepsStrictOrder | app/utils/pipelineManager.ts:110 | filtering a strictly ascending sequence leaves it strictly ascending |
| PipelineManager.CanonicalValuesStrict | app/utils/pipelineManager.ts:23-30 | a canonical pipeline lists its stages with strictly ascending orders |
| PipelineManager.CanonicalOrders | app/utils/pipelineManager.ts:23-30 | in a canonical pipeline the stage listed at position i has order i |
| PipelineManager.InsertByOrder | app/utils/pipelineManager.ts:110 | inserting into an order-sorted sequence keeps it sorted and adds exactly one element |
| PipelineManager.SortByOrder | app/utils/pipelineManager.ts:110 | the sort by `order` yields a sorted permutation of its input |
| PipelineManager.SortSortedIsIdentity | app/utils/pipelineManager.ts:110 | sorting an already sorted sequence returns it unchanged |
| PipelineManager.CreateInitialPipelineStatus | app/utils/pipelineManager.ts:47-95 | the fresh pipeline is canonical and well-formed with `registered` the current stage; only `registered` carries a timestamp, and it is `now` |
| PipelineManager.GetCurrentStep | app/utils/pipelineManager.ts:100-103 | None exactly when no stage is current; otherwise a current step of the pipeline |
| PipelineManager.CurrentStepIs | app/utils/pipelineManager.ts:100-103 | in a pipeline whose one current stage is `c`, the current step found is `c`'s step |
| PipelineManager.GetCompletedSteps | app/utils/pipelineManager.ts:108-111 | the completed steps of Values, each as often as Values lists it and no others, so as many as there are completed steps; sorted by order, strictly ascending for a canonical pipeline |
| PipelineManager.CompletedStepsAre | app/utils/pipelineManager.ts:108-111 | in a well-formed pipeline the completed steps are the canonical stages up to and including the current one, in canonical order |
| PipelineManager.CompletedPrefix | app/utils/pipelineManager.ts:108-111 | when exactly the first n listed stages are completed and they are in order, getCompletedSteps returns those n stages unchanged |
| PipelineManager.GetNextStep | app/utils/pipelineManager.ts:116-123 | none without a current step; with one, a step whose order follows the current step's if Values has such a step, and none only when it has none |
| PipelineManager.NextStepIs | app/utils/pipelineManager.ts:116-123 | in a well-formed pipeline the next step is the next stage, and there is none once `collected` is current |
| PipelineManager.NextIsAt | app/utils/pipelineManager.ts:116-123 | before `collected`, the step whose order is one past the current stage's is the next stage's step |
| PipelineManager.CanAdvanceToStep | app/utils/pipelineManager.ts:128-140 | never true without a current step |
| PipelineManager.CanAdvanceIffNext | app/utils/pipelineManager.ts:128-140 | in a well-formed pipeline a stage may be advanced to if and only if it is the next stage, if and only if getNextStep returns it |
| PipelineManager.CanAdvanceIffRank | app/utils/pipelineManager.ts:128-140 | in a well-formed pipeline a stage may be advanced to if and only if its rank is one past the current stage's |
| PipelineManager.AdvanceToNextStep | app/utils/pipelineManager.ts:148-178 | with no current step or no next step the pipeline comes back unchanged; no completed stage is ever un-completed |
| PipelineManager.CurrentIsUnique | app/utils/pipelineManager.ts:100-103 | the invariant names a single current stage: it holds for `c` and for no other stage |
| PipelineManager.AdvanceShape | app/utils/pipelineManager.ts:155-177 | on a well-formed pipeline the advance is two keyed updates: the current stage loses its current flag, the next stage is completed, made current and stamped |
| PipelineManager.AdvanceMovesCurrent | app/utils/pipelineManager.ts:155-177 | the old current stage stays completed but stops being current; the next stage becomes completed and current with timestamp `now`; the other four stages are untouched; the result is canonical with the next stage current |
| PipelineManager.TwoPutsMoveCurrent | app/utils/pipelineManager.ts:155-177 | the two keyed updates of an advance give a canonical pipeline with the next stage current, change those two stages as the advance does, and leave the other four alone |
| PipelineManager.AdvanceKeepsInvariant | app/utils/pipelineManager.ts:148-178 | after an advance from stage c the pipeline is canonical with c's successor the only current stage |
| PipelineManager.AdvanceAtCollectedIsNoOp | app/utils/pipelineManager.ts:148-153 | once `collected` is current, advancing changes nothing |
| PipelineManager.AdvancePreservesWellFormed | app/utils/pipelineManager.ts:148-178 | advancing preserves the well-formedness invariant |
| PipelineManager.StageAfter | app/utils/pipelineManager.ts:23-30 | the stage k places after c has rank min(c + k, 5), so runs past the end stop at `collected` |
| PipelineManager.StageAfterShifts | app/utils/pipelineManager.ts:23-30 | m + 1 stages after c is m stages after the stage that follows c |
| PipelineManager.AdvanceOneRank | app/utils/pipelineManager.ts:148-178 | one advance from stage c keeps the pipeline canonical and makes the stage one after c current, or leaves `collected` current |
| PipelineManager.AdvanceAllReaches | app/utils/pipelineManager.ts:148-178 | k advances from stage c make stage min(c + k, 5) current and keep the pipeline canonical |
| PipelineManager.FiveAdvancesCollect | app/utils/pipelineManager.ts:47-178 | five advances from a fresh pipeline make `collected` current with all six stages completed; a sixth advance is a no-op |
| PipelineManager.JumpStep | app/utils/pipelineManager.ts:204-222 | a stage is completed iff its order is at most the target's and current iff equal; only the target gets `now`; id, label and order are kept |
| PipelineManager.SetPipelineToStep | app/utils/pipelineManager.ts:184-225 | over the whole pipeline: completed iff order at most the target's, current iff order equals it, only those stages re-stamped, ids, labels and orders unchanged |
| PipelineManager.Key | app/utils/pipelineManager.ts:23-42 | a stage's property name is non-empty and starts with the lower-case form of its display label's first letter |
| PipelineManager.KeyRoundTrip | app/utils/pipelineManager.ts:13-30 | every stage's property name resolves back to that stage |
| PipelineManager.StepOfKey | app/utils/pipelineManager.ts:13-30 | a key resolves to the stage whose property name it is, and to nothing when no stage has that name |
| PipelineManager.SetPipelineToKey | app/utils/pipelineManager.ts:188-189 | a jump to a key that names no stage returns the input unchanged; a stage key jumps to that stage |
| PipelineManager.JumpMakesTargetCurrent | app/utils/pipelineManager.ts:184-225 | a jump on a canonical pipeline, whatever its flags, yields a well-formed pipeline whose only current stage is the target; only the target is re-stamped and every other timestamp is kept, including those of stages reset by a backward jump |
| PipelineManager.ForwardJumpKeepsCompleted | app/utils/pipelineManager.ts:204-222 | a jump to the current stage or a later one never un-completes a stage |
| PipelineManager.BackwardJumpResets | app/utils/pipelineManager.ts:215-221 | a jump to an earlier stage un-completes every later stage, the old current one included, and makes the target current |
| PipelineManager.AdvanceIsJumpToNext | app/utils/pipelineManager.ts:148-225 | from a well-formed pipeline, advancing gives the same pipeline as jumping to the next stage |
| PipelineManager.AdvanceAgreesWithJumpAt | app/utils/pipelineManager.ts:148-225 | stage by stage, advancing and jumping to the next stage give the same step |
| PipelineManager.JsRound | app/utils/pipelineManager.ts:233 | `Math.round` returns the integer within half a unit, with halves rounded up |
| PipelineManager.GetPipelineProgress | app/utils/pipelineManager.ts:230-234 | an integer percentage in 0..100 within half a point of the completed share of six |
| PipelineManager.PercentOf | app/utils/pipelineManager.ts:233 | the rounded percentage of n stages out of six is within half a point of the exact share |
| PipelineManager.ProgressOfCount | app/utils/pipelineManager.ts:230-234 | the percentage is the table entry for the number of completed steps |
| PipelineManager.RoundedShares | app/utils/pipelineManager.ts:233 | the percentages for 0..6 completed stages are 0, 17, 33, 50, 67, 83, 100 |
| PipelineManager.ProgressAt | app/utils/pipelineManager.ts:230-234 | a well-formed pipeline with current stage c reports the rounded share of c + 1 stages |
| PipelineManager.ProgressAtRegistered | app/utils/pipelineManager.ts:230-234 | a well-formed pipeline with `registered` current reports 17 percent |
| PipelineManager.InitialProgress | app/utils/pipelineManager.ts:230-234 | a fresh pipeline reports 17 percent, not 0 |
| PipelineManager.ProgressStep | app/utils/pipelineManager.ts:230-234 | before `collected`, one advance moves the percentage strictly up by one table entry |
| PipelineManager.ProgressAtCollectedIsFull | app/utils/pipelineManager.ts:230-234 | a well-formed pipeline with `collected` current reports 100 percent |
| PipelineManager.ProgressAtCollected | app/utils/pipelineManager.ts:230-234 | with `collected` current the percentage is 100, and still 100 after another advance |
| PipelineManager.ProgressUnderAdvance | app/utils/pipelineManager.ts:230-234 | advancing never lowers the percentage, raises it strictly until `collected`, and leaves it at 100 there |
| PipelineManager.LegacyStepId | app/utils/pipelineManager.ts:244-253 | an old status string maps to the stage whose display label it is exactly, and to nothing otherwise |
| PipelineManager.ConvertLegacyStatus | app/utils/pipelineManager.ts:240-259 | the result is always well-formed; a known label makes its stage current; any other string gives the fresh pipeline |
| PipelineManager.LegacyKnownLabel | app/utils/pipelineManager.ts:253-256 | for each of the six labels the conversion is a jump from a fresh pipeline, stamping the target with the second clock reading |
| PipelineManager.GetCurrentStatusString | app/utils/pipelineManager.ts:264-267 | "Unknown" when no stage is current; never the empty string |
| PipelineManager.StatusStringIsLabel | app/utils/pipelineManager.ts:264-267 | in a well-formed pipeline the status string is the current stage's display label |
| PipelineManager.LegacyRoundTrip | app/utils/pipelineManager.ts:240-267 | converting a known label and reading the status string back gives the same label |
| Text.ToLower | lib/utils/format.ts:22 | an upper-case letter becomes the lower-case letter at the same place in the alphabet; the result is never upper-case, and every non-letter is unchanged |
| Text.ToUpper | lib/utils/format.ts:24 | a lower-case letter becomes the upper-case letter at the same place in the alphabet; the result is never lower-case, and every non-letter is unchanged |
| Text.CaseRoundTrips | lib/utils/format.ts:22-24 | both case mappings are idempotent, and one applied after the other loses only the case |
| Text.LowerStr | lib/utils/format.ts:22 | lower-casing a string keeps its length and lower-cases it character by character |
| Text.UpperStr | lib/utils/format.ts:45 | upper-casing a string keeps its length and upper-cases it character by character |
| Text.LowerStrEqualIff | app/track-mzigo/page.tsx:180 | comparing lower-cased copies is exactly equality up to ASCII case |
| Text.IndexOf | lib/utils/validation.ts:5 | the first position of the character, or None when it does not occur; it locates the '@' in the model of the email pattern |
| Text.CountLowerStr | lib/utils/format.ts:22-23 | lower-casing keeps the number of occurrences of a non-letter such as the space |
| Text.Split | lib/utils/format.ts:23 | splitting always yields at least one piece |
| Text.SplitPiecesAvoidSeparator | lib/utils/format.ts:23 | no piece of a split contains the separator |
| Text.SplitLength | lib/utils/format.ts:23 | a split has one more piece than the string has separators |
| Text.JoinSplit | lib/utils/format.ts:23-25 | joining the pieces of a split gives the string back |
| Text.SplitAfterWord | lib/utils/format.ts:23 | a separator-free prefix is glued onto the first piece |
| Text.SplitJoin | lib/utils/format.ts:23-25 | splitting a join of separator-free words gives the words back |
| Text.LowerEach | lib/utils/format.ts:22-25 | lower-cases every piece and keeps the number of pieces |
| Text.LowerStrConcat | lib/utils/format.ts:22 | lower-casing distributes over concatenation |
| Text.LowerStrJoin | lib/utils/format.ts:22-25 | lower-casing a join is the join of the lower-cased pieces |
| Text.Join | lib/utils/format.ts:25 | joining no words gives ""; a join starts with the first word, followed by the separator when there are more, and its length is the words' total plus one per separator |
| Text.EncodeChar | app/track-mzigo/page.tsx:93-94 | a character in the basic plane is the one code unit of its value; any other is a high surrogate followed by a low surrogate that decode back to it |
| Text.Utf16 | app/track-mzigo/page.tsx:93-94 | a string has at least as many code units as characters, and none exactly when it is empty; a string of basic-plane characters has exactly their values as code units |
| Format.Prefix | lib/utils/format.ts:14 | `substring(0, end)` clamps `end` into the string's bounds |
| Format.TruncateText | lib/utils/format.ts:12-15 | a text that fits is returned unchanged; a longer one becomes its first `maxLength` characters followed by "...", length `maxLength + 3` (just "..." for a negative limit) |
| Format.TruncateIdempotent | lib/utils/format.ts:12-15 | truncating twice with the same limit equals truncating once |
| Format.CapitalizeWord | lib/utils/format.ts:24 | the first character is upper-cased, the rest kept, and the length is unchanged |
| Format.CapitalizeAll | lib/utils/format.ts:24 | each word is capitalised, and the word count is kept |
| Format.CapitalizeWords | lib/utils/format.ts:20-26 | capitalising only changes case, so the length is kept; CapitalizeWordsPieces, LowerOfCapitalized and CapitalizeWordsIdempotent state what the words become |
| Format.CapitalizeWordsPieces | lib/utils/format.ts:20-26 | the output splits into exactly the capitalised lower-cased input words, as many as the input has |
| Format.CapitalizeWordsShape | lib/utils/format.ts:21-25 | every output word starts with a non-lower-case character and has no upper-case letter after it |
| Format.LowerOfCapitalized | lib/utils/format.ts:20-26 | lower-casing the output gives the lower-cased input |
| Format.CapitalizeWordsIdempotent | lib/utils/format.ts:20-26 | capitalising twice equals capitalising once |
| Format.CharAt0 | lib/utils/format.ts:43 | `charAt(0)` is at most one character |
| Format.FirstChars | lib/utils/format.ts:42-44 | at most one initial per word; FirstCharsAreHeads states which initials, in which order |
| Format.NonEmptyWords | lib/utils/format.ts:42-44 | the non-empty words, as many as there are, each with a first character |
| Format.GetInitials | lib/utils/format.ts:40-47 | at most two characters and at most the number of words; the k-th is the first character of the k-th non-empty word, upper-cased |
| Format.UpperInitials | lib/utils/format.ts:45-46 | upper-casing the initials and keeping the first two gives upper-case characters, each the upper-cased head of the word it came from |
| Format.FirstCharsCount | lib/utils/format.ts:42-44 | exactly one initial per non-empty word; the first is the first non-empty word's first character |
| Format.FirstCharsAreHeads | lib/utils/format.ts:42-44 | the initials are exactly the first characters of the non-empty words, in word order |
| Format.InitialsCount | lib/utils/format.ts:40-47 | the initials number min(non-empty words, 2) |
| Format.InitialsOfName | lib/utils/format.ts:40-47 | the empty name has no initials; a name not starting with a space begins its initials with its first character upper-cased |
| Validation.RepeatAtLeast | lib/utils/validation.ts:14 | an anchored `cls{n,}` matches exactly strings of at least n characters, all in the class |
| Validation.IsValidTrackingNumber | lib/utils/validation.ts:20-23 | valid iff at least six characters, all ASCII letters or digits; false for anything shorter |
| Validation.IsValidPhone | lib/utils/validation.ts:12-15 | valid iff at least ten characters, each a digit, whitespace, '+', '(', ')' or '-' |
| Validation.DomainMatches | lib/utils/validation.ts:5 | the domain part matches iff it has no whitespace or '@' and a '.' that is neither its first nor its last character |
| Validation.IsValidEmail | lib/utils/validation.ts:4-7 | valid iff there is no whitespace and exactly one '@', with something before it, and after it a '.' that is neither first nor last |
| Validation.EmailShapeAt | lib/utils/validation.ts:5 | the shape can be decided at the first '@' |
| Validation.EmailSeparators | lib/utils/validation.ts:5 | a valid address has a non-initial '@' and, after it, a '.' neither adjacent to it nor last; every other character is neither whitespace nor '@' |
| Validation.EmailRejectsTwoAts | lib/utils/validation.ts:5 | a string with two '@' is never valid |
| Validation.EmailFromParts | lib/utils/validation.ts:5 | `local@host.tld` with non-empty parts free of whitespace and '@' is valid |
| Validation.PartsOfEmail | lib/utils/validation.ts:5 | every valid address decomposes as `local@host.tld` |
| Validation.EmailIsDecomposition | lib/utils/validation.ts:4-7 | valid iff such a decomposition exists |
| Validation.TrimStart | lib/utils/validation.ts:30 | removes exactly the leading whitespace: what remains is a suffix starting with a non-whitespace character |
| Validation.TrimEnd | lib/utils/validation.ts:30 | removes exactly the trailing whitespace: what remains is a prefix ending with a non-whitespace character |
| Validation.TrimStartThenEnd | lib/utils/validation.ts:30 | trimEnd applied after trimStart leaves a slice of the input with only whitespace around it and no whitespace at either end |
| Validation.Trim | lib/utils/validation.ts:30 | the result is a slice of the input with only whitespace around it in the input, and neither starts nor ends with whitespace |
| Validation.TrimEmptyIff | lib/utils/validation.ts:30 | trimming leaves nothing iff every character is whitespace |
| Validation.ValidateRequired | lib/utils/validation.ts:28-33 | a string passes iff it has a non-whitespace character; any other value passes iff it is neither null nor undefined |
| TrackPage.ToInt32 | app/track-mzigo/page.tsx:95 | `a & a` lands in the signed 32-bit range and is congruent to `a` modulo 2^32 |
| TrackPage.ShiftLeft5 | app/track-mzigo/page.tsx:94 | `a << 5` is a signed 32-bit value |
| TrackPage.HashStep | app/track-mzigo/page.tsx:93-96 | each step of the fold leaves the accumulator in signed 32-bit range |
| TrackPage.HashFrom | app/track-mzigo/page.tsx:93-96 | the fold over a non-empty string is a signed 32-bit value; over an empty one it is the start value |
| TrackPage.HashStepCongruent | app/track-mzigo/page.tsx:94-95 | one step computes `31 * a + code` modulo 2^32 |
| TrackPage.HashIsPolynomial | app/track-mzigo/page.tsx:93-96 | the hash is the signed 32-bit reduction of the base-31 polynomial of the code units |
| TrackPage.TrackingHash | app/track-mzigo/page.tsx:93-96 | the hash is a signed 32-bit value, and 0 for a missing tracking number |
| TrackPage.StatusIndex | app/track-mzigo/page.tsx:97 | `Math.abs(hash) % 5` is a valid index for every integer, -2^31 included |
| TrackPage.GetParcelStatus | app/track-mzigo/page.tsx:90-98 | the status is one of the five legacy labels, never "Collected", and a label the legacy adapter knows |
| TrackPage.NoTrackingNumberIsRegistered | app/track-mzigo/page.tsx:93-97 | a missing or empty tracking number hashes to 0 and gives "Registered" |
| TrackPage.LegacyParcelNeverCollected | app/track-mzigo/page.tsx:126-127 | the pipeline built for a legacy parcel never has `collected` completed or current |
| TrackPage.LegacyParcelDisplay | app/track-mzigo/page.tsx:126-142 | such a parcel displays its hash status and a known location |
| TrackPage.StageText | app/track-mzigo/page.tsx:103-112 | a stage followed by a place suffix is never the unknown-location text |
| TrackPage.GetCurrentLocation | app/track-mzigo/page.tsx:101-116 | "Unknown Location" exactly for statuses outside the five legacy labels, "Collected" included |
| TrackPage.GetStatusColor | app/track-mzigo/page.tsx:224-233 | the grey default exactly when the lower-cased status is none of the five keys |
| TrackPage.StatusColorIgnoresCase | app/track-mzigo/page.tsx:225 | statuses equal up to ASCII case get the same colour |
| TrackPage.StatusColorsOfLabels | app/track-mzigo/page.tsx:224-233 | the keys are the legacy labels lower-cased, so no legacy label gets the grey default, while "Collected" does |
| TrackPage.FindOrder | app/track-mzigo/page.tsx:180 | the first order whose id equals the query up to ASCII case, or none when no order matches |

## Left out

- React rendering and state, the `setTimeout` delay of the search, the API route handlers and hooks, and browser storage and cookies are not modelled. They are UI or I/O.
- `formatCurrency` and `generateTrackingNumber` are not modelled. The first needs floating-point and locale formatting; the second needs the clock and randomness.
- The rest of `convertParcelToOrder` is not modelled: the random delivery dates, the order fields other than id and status, and parcels that already carry a pipeline.
- Clock readings are opaque timestamp parameters; no ordering between them is assumed.
- Step ids outside the six stages cannot be represented.
  - A well-typed caller of `canAdvanceToStep` always finds its target, so the `!targetStep` branch there cannot be taken.
  - For the jump, `SetPipelineToKey` models the unknown-key no-op.
- PipelineManager.SetPipelineToKey: keys inherited from `Object.prototype` (such as "toString") are treated as unknown. In `setPipelineToStep` they would resolve to a truthy value whose `order` is undefined.
- `Object.values` is taken to list the stages in canonical order, the order in which every pipeline is built. Lemmas about results on malformed pipelines with several current steps are stated under the invariant instead.
- PipelineManager.SortByOrder: the contract states a sorted permutation but not stability. Stability only matters for equal orders, which canonical pipelines do not have.
- PipelineManager.Filter: the order in which the kept elements appear is not stated. Its one caller sorts them, and `FilterPrefix` and `FilterKeepsStrictOrder` state the order where it is used.
- PipelineManager.Get: no contract of its own. A lookup on a record without an invariant promises nothing beyond what `Put`, `PutGetIdentity` and `PipelineExtensionality` state.
- PipelineManager.GetPipelineProgress: `Math.round((n / 6) * 100)` is computed over exact reals, not doubles. For the only possible counts, 0 to 6, the double computation rounds to the same values (`RoundedShares`).
- PipelineManager.JumpMakesTargetCurrent: requires a canonical pipeline. If two stages shared the target's order, both would become current.
- Text.ToLower: maps ASCII letters only; full Unicode case mapping is not modelled.
- Text.ToUpper: maps ASCII letters only; full Unicode case mapping (which can change a string's length) is not modelled.
- Format.TruncateText: lengths are counted in characters, not UTF-16 code units, and `maxLength` is an integer. A fractional limit is not modelled.
- Format.FirstChars: its own contract states only the length bound; the initials themselves are stated by `FirstCharsAreHeads`, which keeps the proofs that unfold FirstChars small.
- Format.GetInitials: `charAt(0)` is modelled as the first character, not the first UTF-16 code unit.
- TrackPage.FindOrder: compares with ASCII case folding only, and returns the position of the order rather than the order object.

=== FILE: format.dfy ===
/**
 The pure string helpers of the formatting utilities: truncation with an
 ellipsis, capitalising space-separated words, and initials of a name.
 Case mapping is ASCII-only; a character counts as one unit of length.
 */
module Format {
  import opened Text

  const Ellipsis: string := "..."

  /** `text.substring(0, end)`: `end` is clamped into [0, |text|]. */
  function Prefix(text: string, end: int): (r: string)
    ensures r == text[..if end < 0 then 0 else if end > |text| then |text| else end]
  {
    if end <= 0 then "" else if end >= |text| then text else text[..end]
  }

  /** truncateText: a text that fits is returned as is; a longer one is cut
      at `maxLength` characters and an ellipsis appended. */
  function TruncateText(text: string, maxLength: int): (r: string)
    ensures |text| <= maxLength ==> r == text
    ensures |text| > maxLength >= 0 ==> |r| == maxLength + 3 && r[..maxLength] == text[..maxLength] && r[maxLength..] == Ellipsis
    ensures |text| > maxLength && maxLength < 0 ==> r == Ellipsis
  {
    if |text| <= maxLength then text else Prefix(text, maxLength) + Ellipsis
  }

  /** Truncating twice with the same limit is truncating once. */
  lemma TruncateIdempotent(text: string, maxLength: int)
    ensures TruncateText(TruncateText(text, maxLength), maxLength) == TruncateText(text, maxLength)
  {
    var once := TruncateText(text, maxLength);
    if |text| > maxLength {
      if maxLength >= 0 {
        assert once[..maxLength] == text[..maxLength];
      }
    }
  }

  // ---------------------------------------------------------------------
  // capitalizeWords
  // ---------------------------------------------------------------------

  /** `word.charAt(0).toUpperCase() + word.slice(1)`. */
  function CapitalizeWord(word: string): (r: string)
    ensures |r| == |word|
    ensures |word| > 0 ==> r[0] == ToUpper(word[0]) && r[1..] == word[1..]
  {
    if |word| == 0 then "" else [ToUpper(word[0])] + word[1..]
  }

  function CapitalizeAll(words: seq<string>): (r: seq<string>)
    ensures |r| == |words|
    ensures forall i :: 0 <= i < |words| ==> r[i] == CapitalizeWord(words[i])
  {
    seq(|words|, i requires 0 <= i < |words| => CapitalizeWord(words[i]))
  }

  /** capitalizeWords: lower-case the text, split it on single spaces,
      upper-case the first character of each piece and join on spaces. Only
      case changes, so the length is kept. */
  function CapitalizeWords(text: string): (r: string)
    ensures |r| == |text|
  {
    var pieces := Split(LowerStr(text), ' ');
    var words := CapitalizeAll(pieces);
    assert |Join(words, ' ')| == |text| by {
      SameTotalLength(pieces);
      JoinSplit(LowerStr(text), ' ');
    }
    Join(words, ' ')
  }

  /** A word in the output shape: its first character is not a lower-case
      letter and no later character is an upper-case letter. */
  ghost predicate IsCapitalized(word: string) {
    (|word| > 0 ==> ToUpper(word[0]) == word[0])
    && forall k :: 1 <= k < |word| ==> ToLower(word[k]) == word[k]
  }

  /** No string of `ws` contains an upper-case ASCII letter. */
  ghost predicate AllLowerCase(ws: seq<string>) {
    forall i, k :: 0 <= i < |ws| && 0 <= k < |ws[i]| ==> ToLower(ws[i][k]) == ws[i][k]
  }

  /** The pieces of a lower-cased text are lower-case and space-free. */
  lemma LowerPieces(text: string)
    ensures NoneContains(Split(LowerStr(text), ' '), ' ')
    ensures AllLowerCase(Split(LowerStr(text), ' '))
  {
    var low := LowerStr(text);
    SplitPiecesAvoidSeparator(low, ' ');
    CaseRoundTripsAll(text);
    PiecesOfLowerAreLower(low);
  }

  lemma CaseRoundTripsAll(text: string)
    ensures forall k :: 0 <= k < |text| ==> ToLower(LowerStr(text)[k]) == LowerStr(text)[k]
  {
    forall k | 0 <= k < |text| {
      CaseRoundTrips(text[k]);
    }
  }

  /** The pieces of a text without upper-case letters have none either. */
  lemma {:induction false} PiecesOfLowerAreLower(s: string)
    requires forall k :: 0 <= k < |s| ==> ToLower(s[k]) == s[k]
    ensures AllLowerCase(Split(s, ' '))
  {
    if |s| > 0 {
      PiecesOfLowerAreLower(s[1..]);
    }
  }

  /** The capitalised pieces contain no space. */
  lemma CapitalizedPiecesAvoidSpace(text: string)
    ensures NoneContains(CapitalizeAll(Split(LowerStr(text), ' ')), ' ')
  {
    LowerPieces(text);
    var pieces := Split(LowerStr(text), ' ');
    var words := CapitalizeAll(pieces);
    forall i, k | 0 <= i < |words| && 0 <= k < |words[i]| ensures words[i][k] != ' ' {
      if k == 0 {
        assert words[i][0] == ToUpper(pieces[i][0]);
      } else {
        assert words[i][k] == pieces[i][k];
      }
    }
  }

  /** capitalizeWords keeps the words: the output splits into as many words
      as the input, each the capitalised lower-cased input word. */
  lemma CapitalizeWordsPieces(text: string)
    ensures Split(CapitalizeWords(text), ' ') == CapitalizeAll(Split(LowerStr(text), ' '))
    ensures |Split(CapitalizeWords(text), ' ')| == |Split(text, ' ')|
  {
    var words := CapitalizeAll(Split(LowerStr(text), ' '));
    CapitalizedPiecesAvoidSpace(text);
    SplitJoin(words, ' ');
    SplitLength(LowerStr(text), ' ');
    SplitLength(text, ' ');
    CountLowerStr(text, ' ');
  }

  /** Every word of the output is capitalised. */
  lemma CapitalizeWordsShape(text: string)
    ensures forall w :: w in Split(CapitalizeWords(text), ' ') ==> IsCapitalized(w)
  {
    CapitalizeWordsPieces(text);
    LowerPieces(text);
    var pieces := Split(LowerStr(text), ' ');
    forall i | 0 <= i < |pieces| ensures IsCapitalized(CapitalizeWord(pieces[i])) {
      var w := pieces[i];
      if |w| > 0 {
        CaseRoundTrips(w[0]);
      }
    }
  }

  lemma {:induction false} SameTotalLength(pieces: seq<string>)
    ensures TotalLength(CapitalizeAll(pieces)) == TotalLength(pieces)
  {
    if |pieces| > 0 {
      SameTotalLength(pieces[1..]);
      assert CapitalizeAll(pieces)[1..] == CapitalizeAll(pieces[1..]);
    }
  }

  /** Lower-casing the output gives back the lower-cased input. */
  lemma LowerOfCapitalized(text: string)
    ensures LowerStr(CapitalizeWords(text)) == LowerStr(text)
  {
    var pieces := Split(LowerStr(text), ' ');
    var words := CapitalizeAll(pieces);
    LowerStrJoin(words, ' ');
    LowerPieces(text);
    var lows := LowerEach(words);
    forall i | 0 <= i < |words| ensures lows[i] == pieces[i] {
      var w := pieces[i];
      if |w| > 0 {
        CaseRoundTrips(w[0]);
        assert LowerStr(words[i])[0] == ToLower(ToUpper(w[0]));
        forall k | 1 <= k < |w| ensures LowerStr(words[i])[k] == w[k] {
          assert words[i][k] == w[k];
        }
      }
    }
    assert lows == pieces;
    JoinSplit(LowerStr(text), ' ');
  }

  /** Capitalising a capitalised text changes nothing. */
  lemma CapitalizeWordsIdempotent(text: string)
    ensures CapitalizeWords(CapitalizeWords(text)) == CapitalizeWords(text)
  {
    LowerOfCapitalized(text);
  }

  // ---------------------------------------------------------------------
  // getInitials
  // ---------------------------------------------------------------------

  /** `word.charAt(0)`: the first character, or "" for an empty word. */
  function CharAt0(word: string): (r: string)
    ensures |r| <= 1
  {
    if |word| == 0 then "" else word[..1]
  }

  /** The first characters of the words, `words.map(charAt(0)).join('')`. */
  function FirstChars(words: seq<string>): (r: string)
    ensures |r| <= |words|
  {
    if |words| == 0 then "" else CharAt0(words[0]) + FirstChars(words[1..])
  }

  function CountNonEmpty(words: seq<string>): nat {
    if |words| == 0 then 0 else (if |words[0]| > 0 then 1 else 0) + CountNonEmpty(words[1..])
  }

  /** The non-empty words, in their original order. */
  function NonEmptyWords(words: seq<string>): (r: seq<string>)
    ensures |r| == CountNonEmpty(words)
    ensures forall k :: 0 <= k < |r| ==> |r[k]| > 0
  {
    if |words| == 0 then []
    else if |words[0]| > 0 then [words[0]] + NonEmptyWords(words[1..])
    else NonEmptyWords(words[1..])
  }

  /** getInitials: the first two upper-cased word initials. */
  function GetInitials(name: string): (r: string)
    ensures |r| <= 2
    ensures |r| <= |Split(name, ' ')|
    ensures forall k :: 0 <= k < |r| ==> ToUpper(r[k]) == r[k]
    ensures |r| <= |NonEmptyWords(Split(name, ' '))|
    ensures forall k :: 0 <= k < |r| ==> r[k] == ToUpper(NonEmptyWords(Split(name, ' '))[k][0])
  {
    var words := Split(name, ' ');
    FirstCharsAreHeads(words);
    UpperInitials(FirstChars(words), NonEmptyWords(words));
    Prefix(UpperStr(FirstChars(words)), 2)
  }

  /** The first two upper-cased heads, with the case and the word they come
      from stated per position. */
  lemma UpperInitials(firsts: string, heads: seq<string>)
    requires |firsts| == |heads|
    requires forall k :: 0 <= k < |heads| ==> |heads[k]| > 0 && firsts[k] == heads[k][0]
    ensures var r := Prefix(UpperStr(firsts), 2);
      |r| <= 2 && |r| <= |firsts|
      && (forall k :: 0 <= k < |r| ==> ToUpper(r[k]) == r[k])
      && (forall k :: 0 <= k < |r| ==> r[k] == ToUpper(heads[k][0]))
  {
    var r := Prefix(UpperStr(firsts), 2);
    forall k | 0 <= k < |r| ensures ToUpper(r[k]) == r[k] {
      CaseRoundTrips(firsts[k]);
    }
  }

  /** One initial per non-empty word, up to two. */
  lemma {:induction false} FirstCharsCount(words: seq<string>)
    ensures |FirstChars(words)| == CountNonEmpty(words)
    ensures forall i :: (0 <= i < |words| && |words[i]| > 0 && (forall j :: 0 <= j < i ==> |words[j]| == 0)
      ==> |FirstChars(words)| > 0 && FirstChars(words)[0] == words[i][0])
  {
    if |words| > 0 {
      FirstCharsCount(words[1..]);
    }
  }

  /** The k-th initial is the first character of the k-th non-empty word. */
  lemma {:induction false} FirstCharsAreHeads(words: seq<string>)
    ensures |FirstChars(words)| == |NonEmptyWords(words)|
    ensures forall k :: 0 <= k < |FirstChars(words)| ==> FirstChars(words)[k] == NonEmptyWords(words)[k][0]
  {
    if |words| > 0 {
      FirstCharsAreHeads(words[1..]);
      var firsts := FirstChars(words[1..]);
      var rest := NonEmptyWords(words[1..]);
      if |words[0]| > 0 {
        assert FirstChars(words) == [words[0][0]] + firsts;
        assert NonEmptyWords(words) == [words[0]] + rest;
        forall k | 1 <= k < |FirstChars(words)|
          ensures FirstChars(words)[k] == NonEmptyWords(words)[k][0]
        {
          assert FirstChars(words)[k] == firsts[k - 1];
          assert NonEmptyWords(words)[k] == rest[k - 1];
        }
      } else {
        assert FirstChars(words) == firsts;
        assert NonEmptyWords(words) == rest;
      }
    }
  }

  lemma InitialsCount(name: string)
    ensures |GetInitials(name)| == if CountNonEmpty(Split(name, ' ')) < 2 then CountNonEmpty(Split(name, ' ')) else 2
  {
    FirstCharsCount(Split(name, ' '));
  }

  /** The empty name has no initials; a name starting with a non-space
      character starts its initials with that character, upper-cased. */
  lemma InitialsOfName(name: string)
    ensures name == "" ==> GetInitials(name) == ""
    ensures |name| > 0 && name[0] != ' ' ==> |GetInitials(name)| > 0 && GetInitials(name)[0] == ToUpper(name[0])
  {
    var words := Split(name, ' ');
    FirstCharsCount(words);
    if |name| > 0 && name[0] != ' ' {
      assert |words[0]| > 0 && words[0][0] == name[0];
    }
  }
}

=== FILE: pipeline.dfy ===
/**
 The delivery pipeline state engine: six ordered stages, exactly one of them
 current, every stage up to the current one completed. A pipeline is an
 immutable record with one Step per stage; every operation returns a new
 record. Reading the clock is replaced by a `now` parameter.
 */
module PipelineManager {
  import opened Wrappers
  import Text

  // ---------------------------------------------------------------------
  // Stages
  // ---------------------------------------------------------------------

  datatype StepId = Registered | DropOff | InTransit | Delivered | Notified | Collected

  /** PIPELINE_STEPS_ORDER. */
  const StepsOrder: seq<StepId> := [Registered, DropOff, InTransit, Delivered, Notified, Collected]

  /** The canonical `order` of a stage: its index in StepsOrder. */
  function Rank(id: StepId): (k: nat)
    ensures k < |StepsOrder| && StepsOrder[k] == id
  {
    match id
    case Registered => 0
    case DropOff => 1
    case InTransit => 2
    case Delivered => 3
    case Notified => 4
    case Collected => 5
  }

  lemma RankOfStepsOrder(i: nat)
    requires i < |StepsOrder|
    ensures Rank(StepsOrder[i]) == i
  {
  }

  /** STEP_LABELS: each a non-empty display name starting with a capital. */
  function Label(id: StepId): (r: string)
    ensures |r| > 0 && 'A' <= r[0] <= 'Z'
  {
    match id
    case Registered => "Registered"
    case DropOff => "Drop off"
    case InTransit => "In-transit"
    case Delivered => "Delivered"
    case Notified => "Notified"
    case Collected => "Collected"
  }

  /** The stage after `id`, if any. */
  function Next(id: StepId): (r: Option<StepId>)
    ensures r.None? <==> id == Collected
    ensures r.Some? ==> Rank(r.value) == Rank(id) + 1
  {
    if id == Collected then None else Some(StepsOrder[Rank(id) + 1])
  }

  // ---------------------------------------------------------------------
  // Steps and pipelines
  // ---------------------------------------------------------------------

  /** An opaque ISO-8601 time stamp; only equality is ever used. */
  type Timestamp = string

  datatype Step = Step(
    id: StepId,
    labelText: string,  // the `label` field (`label` is a Dafny keyword)
    completed: bool,
    isCurrent: bool,
    timestamp: Option<Timestamp>,
    order: int)

  /** PipelineStatus: one Step per stage, keyed by stage. */
  datatype Pipeline = Pipeline(
    registered: Step,
    dropOff: Step,
    inTransit: Step,
    delivered: Step,
    notified: Step,
    collected: Step)

  /** `pipelineStatus[id]`. */
  function Get(p: Pipeline, id: StepId): Step {
    match id
    case Registered => p.registered
    case DropOff => p.dropOff
    case InTransit => p.inTransit
    case Delivered => p.delivered
    case Notified => p.notified
    case Collected => p.collected
  }

  /** `{ ...p, [id]: s }`. */
  function Put(p: Pipeline, id: StepId, s: Step): (q: Pipeline)
    ensures Get(q, id) == s
    ensures forall k :: k != id ==> Get(q, k) == Get(p, k)
  {
    match id
    case Registered => p.(registered := s)
    case DropOff => p.(dropOff := s)
    case InTransit => p.(inTransit := s)
    case Delivered => p.(delivered := s)
    case Notified => p.(notified := s)
    case Collected => p.(collected := s)
  }

  /** `Object.values(p)`, in the key order every pipeline is built with. */
  function Values(p: Pipeline): (vs: seq<Step>)
    ensures |vs| == |StepsOrder|
    ensures forall i :: 0 <= i < |vs| ==> vs[i] == Get(p, StepsOrder[i])
  {
    [p.registered, p.dropOff, p.inTransit, p.delivered, p.notified, p.collected]
  }

  /** Two pipelines that agree on every stage are the same pipeline. */
  lemma PipelineExtensionality(p: Pipeline, q: Pipeline)
    requires forall id :: Get(p, id) == Get(q, id)
    ensures p == q
  {
    assert Get(p, Registered) == Get(q, Registered);
    assert Get(p, DropOff) == Get(q, DropOff);
    assert Get(p, InTransit) == Get(q, InTransit);
    assert Get(p, Delivered) == Get(q, Delivered);
    assert Get(p, Notified) == Get(q, Notified);
    assert Get(p, Collected) == Get(q, Collected);
  }

  /** Writing back the step just read leaves the pipeline as it was. */
  lemma PutGetIdentity(p: Pipeline, id: StepId)
    ensures Put(p, id, Get(p, id)) == p
  {
    PipelineExtensionality(Put(p, id, Get(p, id)), p);
  }

  // ---------------------------------------------------------------------
  // Well-formedness
  // ---------------------------------------------------------------------

  /** Every stage carries its own id, label and canonical order. */
  ghost predicate Canonical(p: Pipeline) {
    forall id :: Get(p, id).id == id && Get(p, id).labelText == Label(id) && Get(p, id).order == Rank(id)
  }

  /** `c` is the only current stage, and a stage is completed exactly when it
      is not after `c`. */
  ghost predicate CurrentIs(p: Pipeline, c: StepId) {
    forall id :: (Get(p, id).isCurrent <==> id == c) && (Get(p, id).completed <==> Rank(id) <= Rank(c))
  }

  ghost predicate WellFormed(p: Pipeline) {
    Canonical(p) && exists c :: CurrentIs(p, c)
  }

  /** The invariant names one current stage: `c` and no other. */
  lemma CurrentIsUnique(p: Pipeline, c: StepId, d: StepId)
    requires CurrentIs(p, c)
    ensures CurrentIs(p, d) <==> c == d
  {
    assert Get(p, c).isCurrent;
  }

  // ---------------------------------------------------------------------
  // Array helpers: find, filter, sort
  // ---------------------------------------------------------------------

  /** The index `Array.prototype.find` stops at. */
  function FindIndex(steps: seq<Step>, matches: Step -> bool): (r: Option<nat>)
    ensures r.Some? ==> r.value < |steps| && matches(steps[r.value])
    ensures r.Some? ==> forall j :: 0 <= j < r.value ==> !matches(steps[j])
    ensures r.None? ==> forall j :: 0 <= j < |steps| ==> !matches(steps[j])
  {
    if |steps| == 0 then None
    else if matches(steps[0]) then Some(0)
    else match FindIndex(steps[1..], matches)
      case None => None
      case Some(i) => Some(i + 1)
  }

  /** `steps[i]` is the first element satisfying `matches`. */
  ghost predicate FirstMatchAt(steps: seq<Step>, matches: Step -> bool, i: int) {
    0 <= i < |steps| && matches(steps[i]) && forall j :: 0 <= j < i ==> !matches(steps[j])
  }

  /** `steps.find(matches) || null`. */
  function Find(steps: seq<Step>, matches: Step -> bool): (r: Option<Step>)
    ensures r.Some? ==> exists i :: FirstMatchAt(steps, matches, i) && steps[i] == r.value
    ensures r.None? ==> forall s :: s in steps ==> !matches(s)
  {
    match FindIndex(steps, matches)
    case None => None
    case Some(i) =>
      assert steps[i] in steps;
      Some(steps[i])
  }

  /** When exactly one element satisfies `matches`, find returns it. */
  lemma FindOnly(steps: seq<Step>, matches: Step -> bool, i: nat)
    requires i < |steps|
    requires forall j :: 0 <= j < |steps| ==> (matches(steps[j]) <==> j == i)
    ensures Find(steps, matches) == Some(steps[i])
  {
    assert matches(steps[i]);
  }

  /** When no element satisfies `matches`, find returns nothing. */
  lemma FindNone(steps: seq<Step>, matches: Step -> bool)
    requires forall j :: 0 <= j < |steps| ==> !matches(steps[j])
    ensures Find(steps, matches) == None
  {
    if Find(steps, matches).Some? {
      assert false;
    }
  }

  /** How many elements of `steps` satisfy `keep`. */
  function CountWhere(steps: seq<Step>, keep: Step -> bool): (n: nat)
    ensures n <= |steps|
  {
    if |steps| == 0 then 0 else (if keep(steps[0]) then 1 else 0) + CountWhere(steps[1..], keep)
  }

  /** `steps.filter(keep)`: as many elements as satisfy `keep`, all of them
      from `steps`; FilterMultiplicity adds that each kept element occurs as
      often as in `steps`. */
  function Filter(steps: seq<Step>, keep: Step -> bool): (r: seq<Step>)
    ensures |r| == CountWhere(steps, keep)
    ensures forall s :: s in r <==> s in steps && keep(s)
  {
    if |steps| == 0 then []
    else
      var head := if keep(steps[0]) then [steps[0]] else [];
      assert steps == [steps[0]] + steps[1..];
      head + Filter(steps[1..], keep)
  }

  /** Filtering keeps every kept element exactly as often as it occurs and
      drops every other element. */
  lemma {:induction false} FilterMultiplicity(steps: seq<Step>, keep: Step -> bool)
    ensures forall s :: multiset(Filter(steps, keep))[s] == if keep(s) then multiset(steps)[s] else 0
  {
    if |steps| > 0 {
      FilterMultiplicity(steps[1..], keep);
      assert steps == [steps[0]] + steps[1..];
    }
  }

  /** Filtering a sequence whose first `n` elements are exactly the kept ones
      gives that prefix. */
  lemma {:induction false} FilterPrefix(steps: seq<Step>, keep: Step -> bool, n: nat)
    requires n <= |steps|
    requires forall i :: 0 <= i < |steps| ==> (keep(steps[i]) <==> i < n)
    ensures Filter(steps, keep) == steps[..n]
  {
    if |steps| > 0 {
      var m := if n > 0 then n - 1 else 0;
      KeptPrefixOfRest(steps, keep, n);
      FilterPrefix(steps[1..], keep, m);
      FilterPrefixCons(steps, keep, n);
    }
  }

  /** The kept-prefix condition carries over to the tail. */
  lemma KeptPrefixOfRest(steps: seq<Step>, keep: Step -> bool, n: nat)
    requires 0 < |steps| && n <= |steps|
    requires forall i :: 0 <= i < |steps| ==> (keep(steps[i]) <==> i < n)
    ensures forall i :: 0 <= i < |steps[1..]| ==> (keep(steps[1..][i]) <==> i < if n > 0 then n - 1 else 0)
  {
    var rest := steps[1..];
    forall i | 0 <= i < |rest| ensures keep(rest[i]) <==> i < if n > 0 then n - 1 else 0 {
      assert rest[i] == steps[i + 1];
    }
  }

  /** The step of FilterPrefix: the head is kept exactly when the prefix is
      not empty. */
  lemma FilterPrefixCons(steps: seq<Step>, keep: Step -> bool, n: nat)
    requires 0 < |steps| && n <= |steps|
    requires keep(steps[0]) <==> 0 < n
    requires Filter(steps[1..], keep) == steps[1..][..if n > 0 then n - 1 else 0]
    ensures Filter(steps, keep) == steps[..n]
  {
    var rest := steps[1..];
    var m := if n > 0 then n - 1 else 0;
    if n > 0 {
      assert [steps[0]] + rest[..m] == steps[..n];
    }
  }

  predicate IsCurrentStep(s: Step) { s.isCurrent }

  predicate IsCompletedStep(s: Step) { s.completed }

  function HasOrder(k: int): Step -> bool {
    (s: Step) => s.order == k
  }

  ghost predicate SortedByOrder(s: seq<Step>) {
    forall i, j :: 0 <= i < j < |s| ==> s[i].order <= s[j].order
  }

  /** Inserts `x` before the first element of greater or equal order. */
  function InsertByOrder(x: Step, s: seq<Step>): (r: seq<Step>)
    requires SortedByOrder(s)
    ensures |r| == |s| + 1
    ensures r[0] == x || (|s| > 0 && r[0] == s[0])
    ensures SortedByOrder(r)
    ensures multiset(r) == multiset(s) + multiset{x}
  {
    if |s| == 0 || x.order <= s[0].order then
      SortedCons(x, s);
      [x] + s
    else
      SortedTail(s);
      var tail := InsertByOrder(x, s[1..]);
      SortedCons(s[0], tail);
      assert s == [s[0]] + s[1..];
      [s[0]] + tail
  }

  /** Dropping the head keeps a sequence sorted. */
  lemma SortedTail(s: seq<Step>)
    requires |s| > 0 && SortedByOrder(s)
    ensures SortedByOrder(s[1..])
  {
    forall i, j | 0 <= i < j < |s| - 1 ensures s[1..][i].order <= s[1..][j].order {
      assert s[1..][i] == s[i + 1] && s[1..][j] == s[j + 1];
    }
  }

  /** Putting an element no greater than the head in front keeps a sequence
      sorted. */
  lemma SortedCons(x: Step, s: seq<Step>)
    requires SortedByOrder(s)
    requires |s| == 0 || x.order <= s[0].order
    ensures SortedByOrder([x] + s)
  {
    var r := [x] + s;
    forall i, j | 0 <= i < j < |r| ensures r[i].order <= r[j].order {
      if i == 0 {
        assert r[j] == s[j - 1];
        assert s[0].order <= s[j - 1].order;
      } else {
        assert r[i] == s[i - 1] && r[j] == s[j - 1];
      }
    }
  }

  /** A stable insertion sort on `order`, the `(a, b) => a.order - b.order`
      comparator. */
  function SortByOrder(s: seq<Step>): (r: seq<Step>)
    ensures SortedByOrder(r)
    ensures multiset(r) == multiset(s)
  {
    if |s| == 0 then []
    else
      assert s == [s[0]] + s[1..];
      InsertByOrder(s[0], SortByOrder(s[1..]))
  }

  /** Sorting an already sorted sequence changes nothing. */
  lemma {:induction false} SortSortedIsIdentity(s: seq<Step>)
    requires SortedByOrder(s)
    ensures SortByOrder(s) == s
  {
    if |s| > 0 {
      SortSortedIsIdentity(s[1..]);
      assert [s[0]] + s[1..] == s;
    }
  }

  // ---------------------------------------------------------------------
  // Construction
  // ---------------------------------------------------------------------

  function PendingStep(id: StepId): Step {
    Step(id, Label(id), false, false, None, Rank(id))
  }

  /** createInitialPipelineStatus: `registered` completed and current at `now`,
      every other stage pending. */
  function CreateInitialPipelineStatus(now: Timestamp): (p: Pipeline)
    ensures Canonical(p) && CurrentIs(p, Registered)
    ensures WellFormed(p)
    ensures Get(p, Registered).timestamp == Some(now)
    ensures forall id :: id != Registered ==> Get(p, id).timestamp == None
  {
    Pipeline(
      Step(Registered, Label(Registered), true, true, Some(now), 0),
      PendingStep(DropOff),
      PendingStep(InTransit),
      PendingStep(Delivered),
      PendingStep(Notified),
      PendingStep(Collected))
  }

  // ---------------------------------------------------------------------
  // Queries
  // ---------------------------------------------------------------------

  /** getCurrentStep: the first step flagged current, or None. */
  function GetCurrentStep(p: Pipeline): (r: Option<Step>)
    ensures r.None? <==> forall id :: !Get(p, id).isCurrent
    ensures r.Some? ==> r.value.isCurrent && r.value in Values(p)
  {
    var vs := Values(p);
    var r := Find(vs, IsCurrentStep);
    assert r.None? ==> forall id :: !Get(p, id).isCurrent by {
      if r.None? {
        forall id ensures !Get(p, id).isCurrent {
          assert vs[Rank(id)] == Get(p, id);
        }
      }
    }
    r
  }

  /** In a pipeline whose only current stage is `c`, that stage is found. */
  lemma CurrentStepIs(p: Pipeline, c: StepId)
    requires CurrentIs(p, c)
    ensures GetCurrentStep(p) == Some(Get(p, c))
  {
    var vs := Values(p);
    assert vs[Rank(c)] == Get(p, c);
    var i := FindIndex(vs, IsCurrentStep).value;
    assert vs[i] == Get(p, StepsOrder[i]);
  }

  /** getCompletedSteps: the completed steps in ascending order, each as
      often as Values lists it. */
  function GetCompletedSteps(p: Pipeline): (r: seq<Step>)
    ensures SortedByOrder(r)
    ensures forall s :: s in r <==> s in Values(p) && s.completed
    ensures forall s :: multiset(r)[s] == if s.completed then multiset(Values(p))[s] else 0
    ensures |r| == CountWhere(Values(p), IsCompletedStep)
    ensures Canonical(p) ==> StrictlyByOrder(r)
  {
    var kept := Filter(Values(p), IsCompletedStep);
    var r := SortByOrder(kept);
    FilterMultiplicity(Values(p), IsCompletedStep);
    assert |r| == |kept| by {
      assert |multiset(r)| == |multiset(kept)|;
    }
    assert forall s :: s in r <==> s in kept by {
      forall s ensures s in r <==> s in kept {
        assert s in r <==> s in multiset(r);
        assert s in kept <==> s in multiset(kept);
      }
    }
    assert Canonical(p) ==> StrictlyByOrder(r) by {
      if Canonical(p) {
        CanonicalValuesStrict(p);
        FilterKeepsStrictOrder(Values(p), IsCompletedStep);
        SortSortedIsIdentity(kept);
      }
    }
    r
  }

  /** Strictly ascending by order. */
  ghost predicate StrictlyByOrder(s: seq<Step>) {
    forall i, j :: 0 <= i < j < |s| ==> s[i].order < s[j].order
  }

  /** In a canonical pipeline the i-th listed stage has order i. */
  lemma CanonicalOrders(p: Pipeline)
    requires Canonical(p)
    ensures forall i :: 0 <= i < |Values(p)| ==> Values(p)[i].order == i
  {
    forall i | 0 <= i < |Values(p)| ensures Values(p)[i].order == i {
      RankOfStepsOrder(i);
    }
  }

  /** A canonical pipeline lists its stages with strictly ascending orders. */
  lemma CanonicalValuesStrict(p: Pipeline)
    requires Canonical(p)
    ensures StrictlyByOrder(Values(p))
  {
    var vs := Values(p);
    forall i, j | 0 <= i < j < |vs| ensures vs[i].order < vs[j].order {
      RankOfStepsOrder(i);
      RankOfStepsOrder(j);
    }
  }

  /** In a strictly ascending sequence the head is below every later element. */
  lemma HeadBelowRest(steps: seq<Step>)
    requires |steps| > 0 && StrictlyByOrder(steps)
    ensures forall s :: s in steps[1..] ==> steps[0].order < s.order
  {
    forall s | s in steps[1..] ensures steps[0].order < s.order {
      var k :| 0 <= k < |steps[1..]| && steps[1..][k] == s;
      assert s == steps[k + 1];
    }
  }

  /** Putting an element below every element of a strictly ascending
      sequence in front keeps it strictly ascending. */
  lemma StrictCons(x: Step, s: seq<Step>)
    requires StrictlyByOrder(s)
    requires forall y :: y in s ==> x.order < y.order
    ensures StrictlyByOrder([x] + s)
  {
    var r := [x] + s;
    forall i, j | 0 <= i < j < |r| ensures r[i].order < r[j].order {
      assert r[j] == s[j - 1];
      if i > 0 {
        assert r[i] == s[i - 1];
      }
    }
  }

  /** Filtering keeps a strictly ascending sequence strictly ascending. */
  lemma {:induction false} FilterKeepsStrictOrder(steps: seq<Step>, keep: Step -> bool)
    requires StrictlyByOrder(steps)
    ensures StrictlyByOrder(Filter(steps, keep))
  {
    if |steps| > 0 {
      var rest := steps[1..];
      FilterKeepsStrictOrder(rest, keep);
      HeadBelowRest(steps);
      if keep(steps[0]) {
        StrictCons(steps[0], Filter(rest, keep));
      }
    }
  }

  /** Canonical stages appear in Values in ascending order. */
  lemma CanonicalPrefixSorted(p: Pipeline, n: nat)
    requires Canonical(p) && n <= |StepsOrder|
    ensures SortedByOrder(Values(p)[..n])
  {
    var prefix := Values(p)[..n];
    forall i, j | 0 <= i < j < |prefix| ensures prefix[i].order <= prefix[j].order {
      RankOfStepsOrder(i);
      RankOfStepsOrder(j);
    }
  }

  /** In a well-formed pipeline the completed steps are exactly the stages up
      to the current one, in canonical order. */
  lemma CompletedStepsAre(p: Pipeline, c: StepId)
    requires Canonical(p) && CurrentIs(p, c)
    ensures GetCompletedSteps(p) == Values(p)[..Rank(c) + 1]
    ensures |GetCompletedSteps(p)| == Rank(c) + 1
  {
    var vs := Values(p);
    forall i | 0 <= i < |vs| ensures IsCompletedStep(vs[i]) <==> i < Rank(c) + 1 {
      RankOfStepsOrder(i);
    }
    CanonicalPrefixSorted(p, Rank(c) + 1);
    CompletedPrefix(p, Rank(c) + 1);
  }

  /** When exactly the first n stages are completed and already in order,
      getCompletedSteps returns them unchanged. */
  lemma CompletedPrefix(p: Pipeline, n: nat)
    requires n <= |Values(p)|
    requires forall i :: 0 <= i < |Values(p)| ==> (IsCompletedStep(Values(p)[i]) <==> i < n)
    requires SortedByOrder(Values(p)[..n])
    ensures GetCompletedSteps(p) == Values(p)[..n]
  {
    FilterPrefix(Values(p), IsCompletedStep, n);
    SortSortedIsIdentity(Values(p)[..n]);
  }

  /** getNextStep: the step whose order follows the current step's. */
  function GetNextStep(p: Pipeline): (r: Option<Step>)
    ensures GetCurrentStep(p).None? ==> r.None?
    ensures r.Some? ==> r.value in Values(p) && r.value.order == GetCurrentStep(p).value.order + 1
    ensures GetCurrentStep(p).Some? && r.None? ==>
      forall s :: s in Values(p) ==> s.order != GetCurrentStep(p).value.order + 1
  {
    match GetCurrentStep(p)
    case None => None
    case Some(cur) => Find(Values(p), HasOrder(cur.order + 1))
  }

  /** In a well-formed pipeline the next step is the next stage, and there is
      none after `collected`. */
  lemma NextStepIs(p: Pipeline, c: StepId)
    requires Canonical(p) && CurrentIs(p, c)
    ensures GetNextStep(p) == if c == Collected then None else Some(Get(p, Next(c).value))
  {
    CurrentStepIs(p, c);
    var vs := Values(p);
    var target := Rank(c) + 1;
    assert GetNextStep(p) == Find(vs, HasOrder(target));
    CanonicalOrders(p);
    assert forall i :: 0 <= i < |vs| ==> (HasOrder(target)(vs[i]) <==> i == target);
    if c != Collected {
      NextIsAt(p, c, vs, target);
    } else {
      FindNone(vs, HasOrder(target));
    }
  }

  /** The Find of NextStepIs before `collected`: the stage at index
      Rank(c) + 1 is the next stage. */
  lemma NextIsAt(p: Pipeline, c: StepId, vs: seq<Step>, target: nat)
    requires Canonical(p) && c != Collected && target == Rank(c) + 1 && vs == Values(p)
    requires forall i :: 0 <= i < |vs| ==> (HasOrder(target)(vs[i]) <==> i == target)
    ensures Find(vs, HasOrder(target)) == Some(Get(p, Next(c).value))
  {
    FindOnly(vs, HasOrder(target), target);
    assert vs[target] == Get(p, Next(c).value);
  }

  /** canAdvanceToStep: the target is exactly one place after the current
      step (the `!targetStep` branch cannot be taken: every stage is present). */
  function CanAdvanceToStep(p: Pipeline, target: StepId): (b: bool)
    ensures GetCurrentStep(p).None? ==> !b
  {
    match GetCurrentStep(p)
    case None => false
    case Some(cur) => Get(p, target).order == cur.order + 1
  }

  /** In a well-formed pipeline, the one step that may be advanced to is the
      next stage, and it is what getNextStep returns. */
  lemma CanAdvanceIffNext(p: Pipeline, c: StepId, target: StepId)
    requires Canonical(p) && CurrentIs(p, c)
    ensures CanAdvanceToStep(p, target) <==> Next(c) == Some(target)
    ensures CanAdvanceToStep(p, target) <==> GetNextStep(p) == Some(Get(p, target))
  {
    CanAdvanceIffRank(p, c, target);
    NextStepIs(p, c);
    if c != Collected {
      var n := Next(c).value;
      if Rank(target) == Rank(c) + 1 {
        RankInjective(target, n);
      }
      assert Get(p, n).id == n && Get(p, target).id == target;
    }
  }

  /** The target may be advanced to exactly when it ranks one after c. */
  lemma CanAdvanceIffRank(p: Pipeline, c: StepId, target: StepId)
    requires Canonical(p) && CurrentIs(p, c)
    ensures CanAdvanceToStep(p, target) <==> Rank(target) == Rank(c) + 1
  {
    CurrentStepIs(p, c);
  }

  // ---------------------------------------------------------------------
  // Transitions
  // ---------------------------------------------------------------------

  /** advanceToNextStep: the current step stays completed but stops being
      current; the next step becomes completed and current at `now`. With
      no current or no next step the input comes back unchanged. */
  function AdvanceToNextStep(p: Pipeline, now: Timestamp): (r: Pipeline)
    ensures GetCurrentStep(p).None? || GetNextStep(p).None? ==> r == p
    ensures forall id :: Get(p, id).completed ==> Get(r, id).completed
  {
    match GetCurrentStep(p)
    case None => p
    case Some(cur) =>
      match GetNextStep(p)
      case None => p
      case Some(next) =>
        var q := Put(p, cur.id, cur.(isCurrent := false, completed := true));
        Put(q, next.id, next.(isCurrent := true, completed := true, timestamp := Some(now)))
  }

  /** What advancing past stage `c` of a well-formed pipeline computes. */
  lemma AdvanceShape(p: Pipeline, c: StepId, n: StepId, now: Timestamp)
    requires Canonical(p) && CurrentIs(p, c)
    requires Next(c) == Some(n)
    ensures AdvanceToNextStep(p, now) == Put(Put(p, c, Get(p, c).(isCurrent := false)), n,
      Get(p, n).(completed := true, isCurrent := true, timestamp := Some(now)))
  {
    CurrentStepIs(p, c);
    NextStepIs(p, c);
    assert Get(p, c).completed;
  }

  /** Advancing a well-formed pipeline past stage `c` moves the current flag
      to the next stage, completes and time-stamps it, and touches no other
      stage. */
  lemma AdvanceMovesCurrent(p: Pipeline, c: StepId, n: StepId, now: Timestamp)
    requires Canonical(p) && CurrentIs(p, c)
    requires Next(c) == Some(n)
    ensures Canonical(AdvanceToNextStep(p, now))
    ensures CurrentIs(AdvanceToNextStep(p, now), n)
    ensures Get(AdvanceToNextStep(p, now), c) == Get(p, c).(isCurrent := false)
    ensures Get(AdvanceToNextStep(p, now), n) == Get(p, n).(completed := true, isCurrent := true, timestamp := Some(now))
    ensures forall id :: id != c && id != n ==> Get(AdvanceToNextStep(p, now), id) == Get(p, id)
  {
    AdvanceShape(p, c, n, now);
    TwoPutsMoveCurrent(p, c, n, now);
  }

  /** The two keyed updates of an advance, on their own. */
  lemma TwoPutsMoveCurrent(p: Pipeline, c: StepId, n: StepId, now: Timestamp)
    requires Canonical(p) && CurrentIs(p, c)
    requires Next(c) == Some(n)
    ensures var r := Put(Put(p, c, Get(p, c).(isCurrent := false)), n,
      Get(p, n).(completed := true, isCurrent := true, timestamp := Some(now)));
      Canonical(r) && CurrentIs(r, n)
      && Get(r, c) == Get(p, c).(isCurrent := false)
      && Get(r, n) == Get(p, n).(completed := true, isCurrent := true, timestamp := Some(now))
      && forall id :: id != c && id != n ==> Get(r, id) == Get(p, id)
  {
    var r := Put(Put(p, c, Get(p, c).(isCurrent := false)), n,
      Get(p, n).(completed := true, isCurrent := true, timestamp := Some(now)));
    assert Rank(n) == Rank(c) + 1;
    forall id
      ensures Get(r, id).id == id && Get(r, id).labelText == Label(id) && Get(r, id).order == Rank(id)
      ensures Get(r, id).isCurrent <==> id == n
      ensures Get(r, id).completed <==> Rank(id) <= Rank(n)
    {
      if id != c && id != n {
        assert StepsOrder[Rank(id)] == id;
      }
    }
  }

  /** The invariant part of AdvanceMovesCurrent: the advanced pipeline is
      canonical with the next stage current. */
  lemma AdvanceKeepsInvariant(p: Pipeline, c: StepId, n: StepId, now: Timestamp)
    requires Canonical(p) && CurrentIs(p, c)
    requires Next(c) == Some(n)
    ensures Canonical(AdvanceToNextStep(p, now)) && CurrentIs(AdvanceToNextStep(p, now), n)
  {
    AdvanceMovesCurrent(p, c, n, now);
  }

  /** Once `collected` is current, advancing does nothing. */
  lemma AdvanceAtCollectedIsNoOp(p: Pipeline, now: Timestamp)
    requires Canonical(p) && CurrentIs(p, Collected)
    ensures AdvanceToNextStep(p, now) == p
  {
    NextStepIs(p, Collected);
  }

  lemma AdvancePreservesWellFormed(p: Pipeline, now: Timestamp)
    requires WellFormed(p)
    ensures WellFormed(AdvanceToNextStep(p, now))
  {
    var c :| CurrentIs(p, c);
    match Next(c)
    case None =>
      AdvanceAtCollectedIsNoOp(p, now);
    case Some(n) =>
      AdvanceKeepsInvariant(p, c, n, now);
  }

  /** One step of a stage jump: stages up to the target's order are completed,
      the stage at the target's order becomes current at `now`, later stages
      are reset. */
  function JumpStep(s: Step, targetOrder: int, now: Timestamp): (r: Step)
    ensures r.completed <==> s.order <= targetOrder
    ensures r.isCurrent <==> s.order == targetOrder
    ensures r.timestamp == if s.order == targetOrder then Some(now) else s.timestamp
    ensures r.id == s.id && r.labelText == s.labelText && r.order == s.order
  {
    if s.order <= targetOrder then
      s.(completed := true,
         isCurrent := s.order == targetOrder,
         timestamp := if s.order == targetOrder then Some(now) else s.timestamp)
    else
      s.(completed := false, isCurrent := false)
  }

  /** setPipelineToStep: the administrative jump to any stage, forward or
      backward. Every stage is judged by its `order` against the target's. */
  function SetPipelineToStep(p: Pipeline, target: StepId, now: Timestamp): (r: Pipeline)
    ensures forall id :: Get(r, id).completed <==> Get(p, id).order <= Get(p, target).order
    ensures forall id :: Get(r, id).isCurrent <==> Get(p, id).order == Get(p, target).order
    ensures forall id :: (Get(r, id).timestamp
      == if Get(p, id).order == Get(p, target).order then Some(now) else Get(p, id).timestamp)
    ensures forall id :: (Get(r, id).id == Get(p, id).id && Get(r, id).labelText == Get(p, id).labelText
      && Get(r, id).order == Get(p, id).order)
  {
    var t := Get(p, target).order;
    var r := Pipeline(
      JumpStep(p.registered, t, now),
      JumpStep(p.dropOff, t, now),
      JumpStep(p.inTransit, t, now),
      JumpStep(p.delivered, t, now),
      JumpStep(p.notified, t, now),
      JumpStep(p.collected, t, now));
    assert forall id :: Get(r, id) == JumpStep(Get(p, id), t, now);
    r
  }

  /** The property key of a stage in a pipeline record, as listed in
      PIPELINE_STEPS_ORDER: a name starting with its display label's first
      letter in lower case. */
  function Key(id: StepId): (r: string)
    ensures |r| > 0 && 'a' <= r[0] <= 'z'
    ensures r[0] == Text.ToLower(Label(id)[0])
  {
    match id
    case Registered => "registered"
    case DropOff => "dropOff"
    case InTransit => "inTransit"
    case Delivered => "delivered"
    case Notified => "notified"
    case Collected => "collected"
  }

  /** Every stage's key resolves back to that stage. */
  lemma KeyRoundTrip(id: StepId)
    ensures StepOfKey(Key(id)) == Some(id)
  {
  }

  /** `pipelineStatus[key]` resolved to a stage, or None for a key the
      record does not have. */
  function StepOfKey(key: string): (r: Option<StepId>)
    ensures r.Some? ==> Key(r.value) == key
    ensures r.None? ==> forall id :: Key(id) != key
  {
    if key == "registered" then Some(Registered)
    else if key == "dropOff" then Some(DropOff)
    else if key == "inTransit" then Some(InTransit)
    else if key == "delivered" then Some(Delivered)
    else if key == "notified" then Some(Notified)
    else if key == "collected" then Some(Collected)
    else None
  }

  /** setPipelineToStep called with a key: a key that names no stage
      (`!targetStep`) returns the input unchanged. */
  function SetPipelineToKey(p: Pipeline, key: string, now: Timestamp): (r: Pipeline)
    ensures (forall id :: Key(id) != key) ==> r == p
    ensures forall id :: Key(id) == key ==> r == SetPipelineToStep(p, id, now)
  {
    match StepOfKey(key)
    case None => p
    case Some(id) => SetPipelineToStep(p, id, now)
  }

  /** A jump on a canonical pipeline, whatever its flags, yields a well-formed
      pipeline whose current stage is the target; only the target is
      re-stamped. */
  lemma JumpMakesTargetCurrent(p: Pipeline, target: StepId, now: Timestamp)
    requires Canonical(p)
    ensures Canonical(SetPipelineToStep(p, target, now))
    ensures CurrentIs(SetPipelineToStep(p, target, now), target)
    ensures WellFormed(SetPipelineToStep(p, target, now))
    ensures Get(SetPipelineToStep(p, target, now), target).timestamp == Some(now)
    ensures forall id :: id != target ==> Get(SetPipelineToStep(p, target, now), id).timestamp == Get(p, id).timestamp
  {
    var r := SetPipelineToStep(p, target, now);
    forall id
      ensures Get(r, id).isCurrent <==> id == target
      ensures Get(r, id).completed <==> Rank(id) <= Rank(target)
      ensures id != target ==> Get(r, id).timestamp == Get(p, id).timestamp
    {
      assert StepsOrder[Rank(id)] == id;
    }
    assert CurrentIs(r, target);
  }

  /** A forward (or same-stage) jump never un-completes a stage. */
  lemma ForwardJumpKeepsCompleted(p: Pipeline, c: StepId, target: StepId, now: Timestamp)
    requires Canonical(p) && CurrentIs(p, c)
    requires Rank(c) <= Rank(target)
    ensures forall id :: Get(p, id).completed ==> Get(SetPipelineToStep(p, target, now), id).completed
  {
  }

  /** A backward jump un-completes every stage after the target, the old
      current stage included, and leaves the target current. */
  lemma BackwardJumpResets(p: Pipeline, c: StepId, target: StepId, now: Timestamp)
    requires Canonical(p) && CurrentIs(p, c)
    requires Rank(target) < Rank(c)
    ensures !Get(SetPipelineToStep(p, target, now), c).completed
    ensures !Get(SetPipelineToStep(p, target, now), c).isCurrent
    ensures forall id :: Rank(target) < Rank(id) ==> !Get(SetPipelineToStep(p, target, now), id).completed
    ensures Get(SetPipelineToStep(p, target, now), target).isCurrent
  {
  }

  /** Advancing is the one-stage case of the jump: from a well-formed
      pipeline both give the same result. */
  lemma {:induction false} AdvanceIsJumpToNext(p: Pipeline, c: StepId, now: Timestamp)
    requires Canonical(p) && CurrentIs(p, c)
    requires c != Collected
    ensures AdvanceToNextStep(p, now) == SetPipelineToStep(p, Next(c).value, now)
  {
    var n := Next(c).value;
    var a := AdvanceToNextStep(p, now);
    var j := SetPipelineToStep(p, n, now);
    forall id ensures Get(a, id) == Get(j, id) {
      AdvanceAgreesWithJumpAt(p, c, n, now, id);
    }
    PipelineExtensionality(a, j);
  }

  /** AdvanceIsJumpToNext for one stage. */
  lemma AdvanceAgreesWithJumpAt(p: Pipeline, c: StepId, n: StepId, now: Timestamp, id: StepId)
    requires Canonical(p) && CurrentIs(p, c)
    requires Next(c) == Some(n)
    ensures Get(AdvanceToNextStep(p, now), id) == Get(SetPipelineToStep(p, n, now), id)
  {
    AdvanceMovesCurrent(p, c, n, now);
    assert Get(p, id).order == Rank(id);
    assert Get(p, n).order == Rank(c) + 1;
    if id == c {
    } else if id == n {
    } else {
      assert Get(AdvanceToNextStep(p, now), id) == Get(p, id);
    }
  }

  /** Applies advanceToNextStep once per time stamp, in order. */
  function AdvanceAll(p: Pipeline, nows: seq<Timestamp>): Pipeline
    decreases |nows|
  {
    if |nows| == 0 then p else AdvanceAll(AdvanceToNextStep(p, nows[0]), nows[1..])
  }

  /** The stage k stages after c, or `collected` when that runs past the
      end. */
  function StageAfter(c: StepId, k: nat): (r: StepId)
    ensures Rank(r) == if Rank(c) + k < |StepsOrder| then Rank(c) + k else |StepsOrder| - 1
  {
    var i := if Rank(c) + k < |StepsOrder| then Rank(c) + k else |StepsOrder| - 1;
    RankOfStepsOrder(i);
    StepsOrder[i]
  }

  /** k advances from stage c reach stage min(c + k, collected). */
  lemma {:induction false} AdvanceAllReaches(p: Pipeline, c: StepId, nows: seq<Timestamp>)
    requires Canonical(p) && CurrentIs(p, c)
    ensures Canonical(AdvanceAll(p, nows))
    ensures CurrentIs(AdvanceAll(p, nows), StageAfter(c, |nows|))
    decreases |nows|
  {
    if |nows| > 0 {
      var q := AdvanceToNextStep(p, nows[0]);
      var d := StageAfter(c, 1);
      AdvanceOneRank(p, c, nows[0]);
      AdvanceAllReaches(q, d, nows[1..]);
      AdvanceAllCons(p, nows);
      StageAfterShifts(c, |nows| - 1);
      assert AdvanceAll(p, nows) == AdvanceAll(q, nows[1..]);
      assert StageAfter(c, |nows|) == StageAfter(d, |nows[1..]|);
    } else {
      RankInjective(StageAfter(c, 0), c);
    }
  }

  lemma AdvanceAllCons(p: Pipeline, nows: seq<Timestamp>)
    requires |nows| > 0
    ensures AdvanceAll(p, nows) == AdvanceAll(AdvanceToNextStep(p, nows[0]), nows[1..])
  {
  }

  /** Stages are determined by their rank. */
  lemma RankInjective(a: StepId, b: StepId)
    requires Rank(a) == Rank(b)
    ensures a == b
  {
  }

  /** m + 1 stages after c is m stages after c's successor (or after
      `collected`). */
  lemma StageAfterShifts(c: StepId, m: nat)
    ensures StageAfter(c, m + 1) == StageAfter(StageAfter(c, 1), m)
  {
    RankInjective(StageAfter(c, m + 1), StageAfter(StageAfter(c, 1), m));
  }

  /** One advance from stage c makes the stage after it current, or leaves
      `collected` current. */
  lemma AdvanceOneRank(p: Pipeline, c: StepId, now: Timestamp)
    requires Canonical(p) && CurrentIs(p, c)
    ensures Canonical(AdvanceToNextStep(p, now))
    ensures CurrentIs(AdvanceToNextStep(p, now), StageAfter(c, 1))
  {
    match Next(c)
    case None =>
      AdvanceAtCollectedIsNoOp(p, now);
      RankInjective(StageAfter(c, 1), c);
    case Some(n) =>
      AdvanceKeepsInvariant(p, c, n, now);
      RankInjective(StageAfter(c, 1), n);
  }

  /** Five advances from a fresh pipeline reach `collected` with every stage
      completed; any further advance changes nothing. */
  lemma FiveAdvancesCollect(created: Timestamp, nows: seq<Timestamp>, later: Timestamp)
    requires |nows| == 5
    ensures CurrentIs(AdvanceAll(CreateInitialPipelineStatus(created), nows), Collected)
    ensures forall id :: Get(AdvanceAll(CreateInitialPipelineStatus(created), nows), id).completed
    ensures AdvanceToNextStep(AdvanceAll(CreateInitialPipelineStatus(created), nows), later)
      == AdvanceAll(CreateInitialPipelineStatus(created), nows)
  {
    var p := CreateInitialPipelineStatus(created);
    AdvanceAllReaches(p, Registered, nows);
    AdvanceAtCollectedIsNoOp(AdvanceAll(p, nows), later);
  }

  // ---------------------------------------------------------------------
  // Progress
  // ---------------------------------------------------------------------

  /** Math.round: the nearest integer, halves rounded up. */
  function JsRound(x: real): (r: int)
    ensures r as real - 0.5 <= x < r as real + 0.5
  {
    (x + 0.5).Floor
  }

  /** getPipelineProgress: the completed share of the six stages, as a
      rounded percentage. */
  function GetPipelineProgress(p: Pipeline): (r: int)
    ensures 0 <= r <= 100
    ensures r as real - 0.5 <= (|GetCompletedSteps(p)| as real / |StepsOrder| as real) * 100.0 < r as real + 0.5
  {
    PercentOf(|GetCompletedSteps(p)|)
  }

  /** The rounded percentage of `done` stages out of six. */
  function PercentOf(done: nat): (r: int)
    ensures r as real - 0.5 <= (done as real / |StepsOrder| as real) * 100.0 < r as real + 0.5
  {
    JsRound((done as real / |StepsOrder| as real) * 100.0)
  }

  /** The percentage reported for 0 to 6 completed stages. */
  function ProgressTable(n: nat): int
    requires n <= |StepsOrder|
  {
    if n == 0 then 0
    else if n == 1 then 17
    else if n == 2 then 33
    else if n == 3 then 50
    else if n == 4 then 67
    else if n == 5 then 83
    else 100
  }

  /** The rounded percentages of 0 to 6 completed stages out of 6. */
  lemma RoundedShares(n: nat)
    requires n <= |StepsOrder|
    ensures PercentOf(n) == ProgressTable(n)
  {
    var x := (n as real / 6.0) * 100.0;
    if n == 0 { assert x == 0.0; }
    else if n == 1 { assert 16.5 <= x < 17.5; }
    else if n == 2 { assert 32.5 <= x < 33.5; }
    else if n == 3 { assert x == 50.0; }
    else if n == 4 { assert 66.5 <= x < 67.5; }
    else if n == 5 { assert 82.5 <= x < 83.5; }
    else { assert x == 100.0; }
  }

  /** The percentage of a well-formed pipeline, stage by stage. */
  lemma ProgressAt(p: Pipeline, c: StepId)
    requires Canonical(p) && CurrentIs(p, c)
    ensures GetPipelineProgress(p) == ProgressTable(Rank(c) + 1)
  {
    CompletedStepsAre(p, c);
    ProgressOfCount(p);
  }

  /** The percentage is the table entry for the number of completed steps. */
  lemma ProgressOfCount(p: Pipeline)
    ensures |GetCompletedSteps(p)| <= |StepsOrder|
    ensures GetPipelineProgress(p) == ProgressTable(|GetCompletedSteps(p)|)
  {
    CompletedCountBound(p);
    RoundedShares(|GetCompletedSteps(p)|);
  }

  /** There are never more completed entries than stages. */
  lemma CompletedCountBound(p: Pipeline)
    ensures |GetCompletedSteps(p)| <= |StepsOrder|
  {
  }

  /** A fresh pipeline already reports 17 percent. */
  lemma InitialProgress(now: Timestamp)
    ensures GetPipelineProgress(CreateInitialPipelineStatus(now)) == 17
  {
    ProgressAtRegistered(CreateInitialPipelineStatus(now));
  }

  lemma ProgressAtRegistered(p: Pipeline)
    requires Canonical(p) && CurrentIs(p, Registered)
    ensures GetPipelineProgress(p) == 17
  {
    ProgressAt(p, Registered);
  }

  /** One advance from stage c moves the percentage one entry along the
      table. */
  lemma ProgressStep(p: Pipeline, c: StepId, now: Timestamp)
    requires Canonical(p) && CurrentIs(p, c) && c != Collected
    ensures GetPipelineProgress(p) == ProgressTable(Rank(c) + 1)
    ensures GetPipelineProgress(AdvanceToNextStep(p, now)) == ProgressTable(Rank(c) + 2)
    ensures GetPipelineProgress(p) < GetPipelineProgress(AdvanceToNextStep(p, now))
  {
    var n := Next(c).value;
    AdvanceKeepsInvariant(p, c, n, now);
    ProgressAt(p, c);
    ProgressAt(AdvanceToNextStep(p, now), n);
    ProgressTableIncreasing(Rank(c) + 1);
  }

  lemma ProgressTableIncreasing(i: nat)
    requires i + 1 <= |StepsOrder|
    ensures ProgressTable(i) < ProgressTable(i + 1)
  {
  }

  /** Advancing never lowers the percentage; it raises it until `collected`
      is reached, where it stays at 100. */
  lemma ProgressUnderAdvance(p: Pipeline, c: StepId, now: Timestamp)
    requires Canonical(p) && CurrentIs(p, c)
    ensures GetPipelineProgress(p) <= GetPipelineProgress(AdvanceToNextStep(p, now))
    ensures c != Collected ==> GetPipelineProgress(p) < GetPipelineProgress(AdvanceToNextStep(p, now))
    ensures c == Collected ==> GetPipelineProgress(AdvanceToNextStep(p, now)) == 100
  {
    if c == Collected {
      ProgressAtCollected(p, now);
    } else {
      ProgressStep(p, c, now);
    }
  }

  /** At `collected` the percentage is 100 and advancing keeps it there. */
  lemma ProgressAtCollected(p: Pipeline, now: Timestamp)
    requires Canonical(p) && CurrentIs(p, Collected)
    ensures GetPipelineProgress(p) == 100
    ensures GetPipelineProgress(AdvanceToNextStep(p, now)) == 100
  {
    ProgressAtCollectedIsFull(p);
    AdvanceAtCollectedIsNoOp(p, now);
  }

  lemma ProgressAtCollectedIsFull(p: Pipeline)
    requires Canonical(p) && CurrentIs(p, Collected)
    ensures GetPipelineProgress(p) == 100
  {
    ProgressAt(p, Collected);
  }

  // ---------------------------------------------------------------------
  // Legacy status strings
  // ---------------------------------------------------------------------

  /** The `statusMap` of convertLegacyStatus: an exact, case-sensitive match
      on the six display labels. */
  function LegacyStepId(status: string): (r: Option<StepId>)
    ensures r.Some? ==> Label(r.value) == status
    ensures r.None? ==> forall id :: Label(id) != status
  {
    if status == "Registered" then Some(Registered)
    else if status == "Drop off" then Some(DropOff)
    else if status == "In-transit" then Some(InTransit)
    else if status == "Delivered" then Some(Delivered)
    else if status == "Notified" then Some(Notified)
    else if status == "Collected" then Some(Collected)
    else None
  }

  /** The six labels are distinct, so LegacyStepId inverts Label. */
  lemma LabelsDistinct(a: StepId, b: StepId)
    ensures Label(a) == Label(b) <==> a == b
    ensures LegacyStepId(Label(a)) == Some(a)
  {
  }

  /** convertLegacyStatus, which reads the clock twice: once in
      createInitialPipelineStatus (`created`) and once in setPipelineToStep
      (`now`). */
  function ConvertLegacyStatus(status: string, created: Timestamp, now: Timestamp): (r: Pipeline)
    ensures WellFormed(r)
    ensures forall id :: status == Label(id) ==> CurrentIs(r, id)
    ensures (forall id :: status != Label(id)) ==> r == CreateInitialPipelineStatus(created)
  {
    var initial := CreateInitialPipelineStatus(created);
    match LegacyStepId(status)
    case Some(id) =>
      JumpMakesTargetCurrent(initial, id, now);
      SetPipelineToStep(initial, id, now)
    case None => initial
  }

  /** For each known label the legacy conversion is a jump from a fresh
      pipeline. */
  lemma LegacyKnownLabel(id: StepId, created: Timestamp, now: Timestamp)
    ensures ConvertLegacyStatus(Label(id), created, now)
      == SetPipelineToStep(CreateInitialPipelineStatus(created), id, now)
    ensures Get(ConvertLegacyStatus(Label(id), created, now), id).timestamp == Some(now)
  {
    assert LegacyStepId(Label(id)) == Some(id);
  }

  /** getCurrentStatusString: the current step's label, or "Unknown" when no
      step is current or the label is empty (`label || 'Unknown'`). */
  function GetCurrentStatusString(p: Pipeline): (r: string)
    ensures GetCurrentStep(p).None? ==> r == "Unknown"
    ensures r != ""
  {
    match GetCurrentStep(p)
    case None => "Unknown"
    case Some(s) => if s.labelText == "" then "Unknown" else s.labelText
  }

  lemma StatusStringIsLabel(p: Pipeline, c: StepId)
    requires Canonical(p) && CurrentIs(p, c)
    ensures GetCurrentStatusString(p) == Label(c)
  {
    CurrentStepIs(p, c);
  }

  /** A legacy label survives the round trip through the pipeline model. */
  lemma LegacyRoundTrip(status: string, created: Timestamp, now: Timestamp)
    requires LegacyStepId(status).Some?
    ensures GetCurrentStatusString(ConvertLegacyStatus(status, created, now)) == status
  {
    var id := LegacyStepId(status).value;
    JumpMakesTargetCurrent(CreateInitialPipelineStatus(created), id, now);
    StatusStringIsLabel(ConvertLegacyStatus(status, created, now), id);
  }
}

=== FILE: text.dfy ===
/**
 The string primitives of JavaScript that the helpers rely on, restricted to
 what the model needs: ASCII case mapping (`toLowerCase` / `toUpperCase`),
 the `\s` / `trim` whitespace class, `split` and `join` on one separator
 character, a first-occurrence search that locates the '@' in the model of
 the email pattern, and the UTF-16 code units that `charCodeAt` sees.
 */
module Text {
  import opened Wrappers

  // ---------------------------------------------------------------------
  // Character classes and ASCII case mapping
  // ---------------------------------------------------------------------

  predicate IsAsciiUpper(c: char) { 'A' <= c <= 'Z' }

  predicate IsAsciiLower(c: char) { 'a' <= c <= 'z' }

  predicate IsAsciiDigit(c: char) { '0' <= c <= '9' }

  predicate IsAsciiLetter(c: char) { IsAsciiUpper(c) || IsAsciiLower(c) }

  /** ECMAScript WhiteSpace and LineTerminator code points: the set matched by
      the regular-expression class `\s` and removed by `String.prototype.trim`. */
  predicate IsWhiteSpace(c: char) {
    var n := c as int;
    || n == 0x09 || n == 0x0A || n == 0x0B || n == 0x0C || n == 0x0D
    || n == 0x20 || n == 0xA0 || n == 0x1680
    || (0x2000 <= n <= 0x200A)
    || n == 0x2028 || n == 0x2029 || n == 0x202F || n == 0x205F
    || n == 0x3000 || n == 0xFEFF
  }

  /** `toLowerCase` on one character, ASCII letters only: an upper-case letter
      becomes the lower-case letter at the same place in the alphabet. */
  function ToLower(c: char): (r: char)
    ensures !IsAsciiUpper(r)
    ensures IsAsciiLetter(r) <==> IsAsciiLetter(c)
    ensures !IsAsciiLetter(c) ==> r == c
    ensures IsAsciiUpper(c) ==> r as int - 'a' as int == c as int - 'A' as int
  {
    if IsAsciiUpper(c) then (c as int + 32) as char else c
  }

  /** `toUpperCase` on one character, ASCII letters only: a lower-case letter
      becomes the upper-case letter at the same place in the alphabet. */
  function ToUpper(c: char): (r: char)
    ensures !IsAsciiLower(r)
    ensures IsAsciiLetter(r) <==> IsAsciiLetter(c)
    ensures !IsAsciiLetter(c) ==> r == c
    ensures IsAsciiLower(c) ==> r as int - 'A' as int == c as int - 'a' as int
  {
    if IsAsciiLower(c) then (c as int - 32) as char else c
  }

  /** Lower-casing then upper-casing (or the reverse) loses only the case. */
  lemma CaseRoundTrips(c: char)
    ensures ToLower(ToUpper(c)) == ToLower(c)
    ensures ToUpper(ToLower(c)) == ToUpper(c)
    ensures ToLower(ToLower(c)) == ToLower(c)
    ensures ToUpper(ToUpper(c)) == ToUpper(c)
  {
  }

  function LowerStr(s: string): (r: string)
    ensures |r| == |s|
    ensures forall i :: 0 <= i < |s| ==> r[i] == ToLower(s[i])
  {
    seq(|s|, i requires 0 <= i < |s| => ToLower(s[i]))
  }

  function UpperStr(s: string): (r: string)
    ensures |r| == |s|
    ensures forall i :: 0 <= i < |s| ==> r[i] == ToUpper(s[i])
  {
    seq(|s|, i requires 0 <= i < |s| => ToUpper(s[i]))
  }

  /** Two strings that agree up to ASCII case, character by character. */
  ghost predicate EqualIgnoringCase(a: string, b: string) {
    |a| == |b| && forall i :: 0 <= i < |a| ==> ToLower(a[i]) == ToLower(b[i])
  }

  /** Comparing lower-cased copies, as `a.toLowerCase() === b.toLowerCase()`
      does, is exactly case-insensitive equality. */
  lemma LowerStrEqualIff(a: string, b: string)
    ensures LowerStr(a) == LowerStr(b) <==> EqualIgnoringCase(a, b)
  {
    if EqualIgnoringCase(a, b) {
      assert forall i :: 0 <= i < |a| ==> LowerStr(a)[i] == LowerStr(b)[i];
    }
  }

  // ---------------------------------------------------------------------
  // Searching and counting
  // ---------------------------------------------------------------------

  /** `s.indexOf(c)`, with -1 rendered as None. */
  function IndexOf(s: string, c: char): (r: Option<nat>)
    ensures r.Some? ==> r.value < |s| && s[r.value] == c && forall k :: 0 <= k < r.value ==> s[k] != c
    ensures r.None? ==> forall k :: 0 <= k < |s| ==> s[k] != c
  {
    if |s| == 0 then None
    else if s[0] == c then Some(0)
    else match IndexOf(s[1..], c)
      case None => None
      case Some(i) => Some(i + 1)
  }

  function Count(s: string, c: char): nat {
    if |s| == 0 then 0 else (if s[0] == c then 1 else 0) + Count(s[1..], c)
  }

  /** Lower-casing keeps the number of occurrences of a non-letter. */
  lemma {:induction false} CountLowerStr(s: string, c: char)
    requires !IsAsciiLetter(c)
    ensures Count(LowerStr(s), c) == Count(s, c)
  {
    if |s| > 0 {
      assert LowerStr(s)[1..] == LowerStr(s[1..]);
      CountLowerStr(s[1..], c);
    }
  }

  // ---------------------------------------------------------------------
  // split / join
  // ---------------------------------------------------------------------

  /** `s.split(sep)` for a one-character separator: always at least one
      piece, an empty piece between adjacent separators, `"".split(sep) == [""]`. */
  function Split(s: string, sep: char): (ws: seq<string>)
    ensures |ws| >= 1
  {
    if |s| == 0 then [""]
    else
      var rest := Split(s[1..], sep);
      if s[0] == sep then [""] + rest
      else [[s[0]] + rest[0]] + rest[1..]
  }

  /** `ws.join(sep)`; `[].join(sep) == ""`. The result starts with the first
      word, and its length is the words' total plus one per separator. */
  function Join(ws: seq<string>, sep: char): (r: string)
    ensures |ws| == 0 ==> r == ""
    ensures |ws| > 0 ==> |r| == TotalLength(ws) + |ws| - 1
    ensures |ws| > 0 ==> |ws[0]| <= |r| && r[..|ws[0]|] == ws[0]
    ensures |ws| > 1 ==> r[|ws[0]|] == sep
  {
    if |ws| == 0 then ""
    else if |ws| == 1 then ws[0]
    else ws[0] + [sep] + Join(ws[1..], sep)
  }

  /** No string of `ws` contains `c`. */
  ghost predicate NoneContains(ws: seq<string>, c: char) {
    forall i, k :: 0 <= i < |ws| && 0 <= k < |ws[i]| ==> ws[i][k] != c
  }

  /** No piece of a split contains the separator. */
  lemma {:induction false} SplitPiecesAvoidSeparator(s: string, sep: char)
    ensures NoneContains(Split(s, sep), sep)
  {
    if |s| > 0 {
      SplitPiecesAvoidSeparator(s[1..], sep);
    }
  }

  /** There is one more piece than there are separators. */
  lemma {:induction false} SplitLength(s: string, sep: char)
    ensures |Split(s, sep)| == Count(s, sep) + 1
  {
    if |s| > 0 {
      SplitLength(s[1..], sep);
    }
  }

  /** Joining the pieces of a split restores the string. */
  lemma {:induction false} JoinSplit(s: string, sep: char)
    ensures Join(Split(s, sep), sep) == s
  {
    if |s| > 0 {
      var rest := Split(s[1..], sep);
      JoinSplit(s[1..], sep);
      if s[0] == sep {
        assert ([""] + rest)[1..] == rest;
      } else if |rest| > 1 {
        var ws := [[s[0]] + rest[0]] + rest[1..];
        assert ws[1..] == rest[1..];
        assert Join(rest, sep) == rest[0] + [sep] + Join(rest[1..], sep);
      }
    }
  }

  /** Splitting a separator-free word followed by `t` glues the word onto
      the first piece of `t`. */
  lemma {:induction false} SplitAfterWord(w: string, t: string, sep: char)
    requires forall k :: 0 <= k < |w| ==> w[k] != sep
    ensures Split(w + t, sep) == [w + Split(t, sep)[0]] + Split(t, sep)[1..]
  {
    var pieces := Split(t, sep);
    if |w| == 0 {
      assert w + t == t;
      assert w + pieces[0] == pieces[0];
      assert [pieces[0]] + pieces[1..] == pieces;
    } else {
      assert (w + t)[1..] == w[1..] + t;
      SplitAfterWord(w[1..], t, sep);
      var rest := Split(w[1..] + t, sep);
      assert rest[0] == w[1..] + pieces[0];
      assert rest[1..] == pieces[1..];
      assert [w[0]] + (w[1..] + pieces[0]) == w + pieces[0];
    }
  }

  /** Splitting a join of separator-free words gives the words back. */
  lemma {:induction false} SplitJoin(ws: seq<string>, sep: char)
    requires |ws| >= 1
    requires NoneContains(ws, sep)
    ensures Split(Join(ws, sep), sep) == ws
  {
    if |ws| == 1 {
      SplitAfterWord(ws[0], "", sep);
      assert ws[0] + "" == ws[0];
    } else {
      var tail := Join(ws[1..], sep);
      SplitJoin(ws[1..], sep);
      assert Join(ws, sep) == ws[0] + ([sep] + tail);
      SplitAfterWord(ws[0], [sep] + tail, sep);
      assert ([sep] + tail)[1..] == tail;
      assert Split([sep] + tail, sep) == [""] + ws[1..];
      assert ws[0] + "" == ws[0];
      assert [ws[0]] + ws[1..] == ws;
    }
  }

  /** Every piece lower-cased. */
  function LowerEach(ws: seq<string>): (r: seq<string>)
    ensures |r| == |ws|
    ensures forall i :: 0 <= i < |ws| ==> r[i] == LowerStr(ws[i])
  {
    if |ws| == 0 then [] else [LowerStr(ws[0])] + LowerEach(ws[1..])
  }

  /** Lower-casing a join lower-cases every piece (the separator is not a letter). */
  lemma {:induction false} LowerStrJoin(ws: seq<string>, sep: char)
    requires !IsAsciiLetter(sep)
    ensures LowerStr(Join(ws, sep)) == Join(LowerEach(ws), sep)
  {
    if |ws| >= 2 {
      var tail := Join(ws[1..], sep);
      LowerStrJoin(ws[1..], sep);
      LowerStrConcat(ws[0] + [sep], tail);
      LowerStrConcat(ws[0], [sep]);
    }
  }

  /** Lower-casing distributes over concatenation. */
  lemma LowerStrConcat(a: string, b: string)
    ensures LowerStr(a + b) == LowerStr(a) + LowerStr(b)
  {
  }

  /** The sum of the piece lengths. */
  function TotalLength(ws: seq<string>): nat {
    if |ws| == 0 then 0 else |ws[0]| + TotalLength(ws[1..])
  }

  // ---------------------------------------------------------------------
  // UTF-16
  // ---------------------------------------------------------------------

  /** A UTF-16 code unit, the value `charCodeAt` returns. */
  type CodeUnit = n: int | 0 <= n < 0x1_0000

  /** The UTF-16 encoding of one Unicode scalar value. */
  function EncodeChar(c: char): (us: seq<CodeUnit>)
    ensures 1 <= |us| <= 2
    ensures c as int < 0x1_0000 <==> us == [c as int]
    ensures c as int >= 0x1_0000 ==> |us| == 2
    ensures c as int >= 0x1_0000 ==> 0xD800 <= us[0] < 0xDC00 <= us[1] < 0xE000
    ensures c as int >= 0x1_0000 ==> (us[0] as int - 0xD800) * 0x400 + (us[1] as int - 0xDC00) + 0x1_0000 == c as int
  {
    var n := c as int;
    if n < 0x1_0000 then [n]
    else [0xD800 + (n - 0x1_0000) / 0x400, 0xDC00 + (n - 0x1_0000) % 0x400]
  }

  /** The code units a JavaScript string of the given characters consists of. */
  function Utf16(s: string): (us: seq<CodeUnit>)
    ensures |us| >= |s|
    ensures |s| == 0 <==> |us| == 0
    ensures (forall k :: 0 <= k < |s| ==> s[k] as int < 0x1_0000) ==>
      us == seq(|s|, k requires 0 <= k < |s| => s[k] as int)
  {
    if |s| == 0 then [] else EncodeChar(s[0]) + Utf16(s[1..])
  }
}

=== FILE: track_page.dfy ===
/**
 The pure helpers of the parcel tracking page: the legacy status a parcel
 without a pipeline is given (a 32-bit string hash picks one of five
 labels), the location text shown for a status, the badge colour of a
 status, and the case-insensitive lookup of an order by tracking number.
 */
module TrackPage {
  import opened Wrappers
  import opened Text
  import PipelineManager

  /** The five labels a legacy parcel can be given; "Collected" is not one. */
  const LegacyStatuses: seq<string> := ["Registered", "Drop off", "In-transit", "Delivered", "Notified"]

  /** The fields of a stored parcel these helpers read. */
  datatype Parcel = Parcel(trackingNumber: Option<string>, senderStage: string, receiverStage: string)

  /** The field of an order the search compares. */
  datatype Order = Order(orderId: string)

  // ---------------------------------------------------------------------
  // 32-bit arithmetic of JavaScript's bitwise operators
  // ---------------------------------------------------------------------

  const TwoTo31: int := 0x8000_0000
  const TwoTo32: int := 0x1_0000_0000

  predicate IsInt32(x: int) { -TwoTo31 <= x < TwoTo31 }

  /** ECMAScript ToInt32 on an integral number: reduce modulo 2^32 into the
      signed range. */
  function ToInt32(x: int): (r: int)
    ensures IsInt32(r)
    ensures (x - r) % TwoTo32 == 0
  {
    (x + TwoTo31) % TwoTo32 - TwoTo31
  }

  lemma ToInt32OfInt32(x: int)
    requires IsInt32(x)
    ensures ToInt32(x) == x
  {
  }

  /** Integers that differ by a multiple of 2^32 have the same ToInt32. */
  lemma ToInt32Congruent(x: int, y: int)
    requires (x - y) % TwoTo32 == 0
    ensures ToInt32(x) == ToInt32(y)
  {
    var q := (x - y) / TwoTo32;
    assert x == y + TwoTo32 * q;
    assert (y + TwoTo32 * q + TwoTo31) % TwoTo32 == (y + TwoTo31) % TwoTo32;
  }

  /** `a << 5`. */
  function ShiftLeft5(a: int): (r: int)
    ensures IsInt32(r)
  {
    ToInt32(ToInt32(a) * 32)
  }

  /** One step of the reduce: `a = ((a << 5) - a) + code; return a & a`.
      The subtraction and addition are exact (|value| < 2^34), and `a & a`
      is ToInt32 of the value. */
  function HashStep(a: int, code: CodeUnit): (r: int)
    ensures IsInt32(r)
  {
    ToInt32(ShiftLeft5(a) - a + code)
  }

  /** The reduce over the code units, starting from accumulator `a`. */
  function HashFrom(a: int, codes: seq<CodeUnit>): (h: int)
    ensures |codes| > 0 ==> IsInt32(h)
    ensures |codes| == 0 ==> h == a
    decreases |codes|
  {
    if |codes| == 0 then a else HashFrom(HashStep(a, codes[0]), codes[1..])
  }

  /** The hash as an exact integer: Horner's rule with base 31. */
  function Horner(a: int, codes: seq<CodeUnit>): int
    decreases |codes|
  {
    if |codes| == 0 then a else Horner(31 * a + codes[0], codes[1..])
  }

  /** Differing by a multiple of 2^32 and being congruent are the same. */
  lemma MultipleIsCongruent(x: int, y: int, q: int)
    requires x - y == TwoTo32 * q
    ensures (x - y) % TwoTo32 == 0
  {
  }

  lemma CongruentIsMultiple(x: int, y: int)
    requires (x - y) % TwoTo32 == 0
    ensures x - y == TwoTo32 * ((x - y) / TwoTo32)
  {
  }

  /** Horner's rule respects congruence modulo 2^32. */
  lemma {:induction false} HornerCongruent(x: int, y: int, codes: seq<CodeUnit>)
    requires (x - y) % TwoTo32 == 0
    ensures (Horner(x, codes) - Horner(y, codes)) % TwoTo32 == 0
    decreases |codes|
  {
    if |codes| > 0 {
      var q := (x - y) / TwoTo32;
      CongruentIsMultiple(x, y);
      var x', y' := 31 * x + codes[0], 31 * y + codes[0];
      assert x' - y' == 31 * (x - y);
      MultipleIsCongruent(x', y', 31 * q);
      HornerCongruent(x', y', codes[1..]);
    }
  }

  /** One hash step is 31 * a + code, modulo 2^32. */
  lemma HashStepCongruent(a: int, code: CodeUnit)
    requires IsInt32(a)
    ensures (HashStep(a, code) - (31 * a + code)) % TwoTo32 == 0
  {
    ToInt32OfInt32(a);
    var s := ToInt32(a * 32);
    CongruentIsMultiple(a * 32, s);
    var q := (a * 32 - s) / TwoTo32;
    var v := s - a + code;
    var r := HashStep(a, code);
    CongruentIsMultiple(v, r);
    var q2 := (v - r) / TwoTo32;
    assert r - (31 * a + code) == TwoTo32 * (-(q + q2));
    MultipleIsCongruent(r, 31 * a + code, -(q + q2));
  }

  /** The fold computes the signed 32-bit reduction of the base-31
      polynomial of the code units. */
  lemma {:induction false} HashIsPolynomial(a: int, codes: seq<CodeUnit>)
    requires IsInt32(a)
    ensures HashFrom(a, codes) == ToInt32(Horner(a, codes))
    decreases |codes|
  {
    if |codes| == 0 {
      ToInt32OfInt32(a);
    } else {
      var b := HashStep(a, codes[0]);
      HashIsPolynomial(b, codes[1..]);
      HashStepCongruent(a, codes[0]);
      HornerCongruent(b, 31 * a + codes[0], codes[1..]);
      ToInt32Congruent(Horner(b, codes[1..]), Horner(31 * a + codes[0], codes[1..]));
    }
  }

  // ---------------------------------------------------------------------
  // getParcelStatus
  // ---------------------------------------------------------------------

  /** `parcel.trackingNumber?.split('').reduce(..., 0) || 0`. */
  function TrackingHash(trackingNumber: Option<string>): (h: int)
    ensures IsInt32(h)
    ensures trackingNumber.None? ==> h == 0
  {
    match trackingNumber
    case None => 0
    case Some(s) => HashFrom(0, Utf16(s))
  }

  /** `Math.abs(hash) % statuses.length`; Math.abs of -2^31 is exact. */
  function StatusIndex(hash: int): (i: nat)
    ensures i < |LegacyStatuses|
  {
    (if hash < 0 then -hash else hash) % |LegacyStatuses|
  }

  /** getParcelStatus: one of the five legacy labels, never "Collected". */
  function GetParcelStatus(parcel: Parcel): (r: string)
    ensures r in LegacyStatuses
    ensures r != "Collected"
    ensures PipelineManager.LegacyStepId(r).Some?
    ensures PipelineManager.LegacyStepId(r) != Some(PipelineManager.Collected)
  {
    LegacyStatuses[StatusIndex(TrackingHash(parcel.trackingNumber))]
  }

  /** A parcel with no tracking number, or an empty one, hashes to 0 and is
      'Registered'. */
  lemma NoTrackingNumberIsRegistered(parcel: Parcel)
    requires parcel.trackingNumber.None? || parcel.trackingNumber == Some("")
    ensures TrackingHash(parcel.trackingNumber) == 0
    ensures GetParcelStatus(parcel) == "Registered"
  {
  }

  /** A legacy parcel's pipeline never has `collected` reached. */
  lemma LegacyParcelNeverCollected(parcel: Parcel, created: PipelineManager.Timestamp, now: PipelineManager.Timestamp)
    ensures !PipelineManager.Get(PipelineManager.ConvertLegacyStatus(GetParcelStatus(parcel), created, now),
      PipelineManager.Collected).completed
    ensures !PipelineManager.Get(PipelineManager.ConvertLegacyStatus(GetParcelStatus(parcel), created, now),
      PipelineManager.Collected).isCurrent
  {
    var status := GetParcelStatus(parcel);
    var id := PipelineManager.LegacyStepId(status).value;
    assert status == PipelineManager.Label(id);
  }

  /** The status a legacy parcel is shown with is its hash label, and its
      location is a known one. */
  lemma LegacyParcelDisplay(parcel: Parcel, created: PipelineManager.Timestamp, now: PipelineManager.Timestamp)
    ensures PipelineManager.GetCurrentStatusString(
      PipelineManager.ConvertLegacyStatus(GetParcelStatus(parcel), created, now)) == GetParcelStatus(parcel)
    ensures GetCurrentLocation(parcel, GetParcelStatus(parcel)) != UnknownLocation
  {
    PipelineManager.LegacyRoundTrip(GetParcelStatus(parcel), created, now);
  }

  // ---------------------------------------------------------------------
  // getCurrentLocation
  // ---------------------------------------------------------------------

  const UnknownLocation: string := "Unknown Location"

  /** A stage name followed by a place suffix; the suffix's last character
      keeps it apart from the unknown-location text. */
  function StageText(stage: string, suffix: string): (r: string)
    requires |suffix| > 0 && suffix[|suffix| - 1] != UnknownLocation[|UnknownLocation| - 1]
    ensures r != UnknownLocation
    ensures |r| == |stage| + |suffix|
  {
    var r := stage + suffix;
    assert r[|r| - 1] == suffix[|suffix| - 1];
    r
  }

  /** getCurrentLocation: a text naming the sender's or receiver's stage for
      the five legacy labels, 'Unknown Location' otherwise. */
  function GetCurrentLocation(parcel: Parcel, status: string): (r: string)
    ensures r == UnknownLocation <==> status !in LegacyStatuses
  {
    var sender, receiver := parcel.senderStage, parcel.receiverStage;
    if status == "Registered" then StageText(sender, " - Processing Center")
    else if status == "Drop off" then StageText(sender, " - Pickup Point")
    else if status == "In-transit" then "En route from " + sender + " to " + receiver
    else if status == "Delivered" then StageText(receiver, " - Delivered")
    else if status == "Notified" then StageText(receiver, " - Delivery Completed")
    else UnknownLocation
  }

  // ---------------------------------------------------------------------
  // getStatusColor
  // ---------------------------------------------------------------------

  const DefaultColor: string := "bg-gray-100 text-gray-800"

  /** The lower-cased statuses that have a colour of their own. */
  const ColorKeys: seq<string> := ["registered", "drop off", "in-transit", "delivered", "notified"]

  /** getStatusColor: badge classes for the lower-cased status. */
  function GetStatusColor(status: string): (r: string)
    ensures r == DefaultColor <==> LowerStr(status) !in ColorKeys
  {
    var key := LowerStr(status);
    if key == "registered" then "bg-blue-100 text-blue-800"
    else if key == "drop off" then "bg-yellow-100 text-yellow-800"
    else if key == "in-transit" then "bg-orange-100 text-orange-800"
    else if key == "delivered" then "bg-green-100 text-green-800"
    else if key == "notified" then "bg-purple-100 text-purple-800"
    else DefaultColor
  }

  /** Statuses equal up to ASCII case get the same colour. */
  lemma StatusColorIgnoresCase(a: string, b: string)
    requires EqualIgnoringCase(a, b)
    ensures GetStatusColor(a) == GetStatusColor(b)
  {
    LowerStrEqualIff(a, b);
  }

  /** The colour keys are the legacy labels lower-cased, so no legacy label
      falls to the grey default, while "Collected" does. */
  lemma StatusColorsOfLabels()
    ensures forall i :: 0 <= i < |LegacyStatuses| ==> LowerStr(LegacyStatuses[i]) == ColorKeys[i]
    ensures forall i :: 0 <= i < |LegacyStatuses| ==> GetStatusColor(LegacyStatuses[i]) != DefaultColor
    ensures GetStatusColor("Collected") == DefaultColor
  {
    forall i | 0 <= i < |LegacyStatuses| ensures LowerStr(LegacyStatuses[i]) == ColorKeys[i] {
      LowerLabelIsKey(i);
    }
    var collected := LowerStr("Collected");
    assert collected[0] == 'c';
  }

  lemma LowerLabelIsKey(i: nat)
    requires i < |LegacyStatuses|
    ensures LowerStr(LegacyStatuses[i]) == ColorKeys[i]
  {
    var name, key := LegacyStatuses[i], ColorKeys[i];
    assert |name| == |key|;
    forall k | 0 <= k < |name| ensures ToLower(name[k]) == key[k] {
    }
    assert LowerStr(name) == key;
  }

  // ---------------------------------------------------------------------
  // handleSearch lookup
  // ---------------------------------------------------------------------

  /** `allOrders.find(o => o.orderId.toLowerCase() === query.toLowerCase())`:
      the first order whose id equals the query up to ASCII case. */
  method FindOrder(orders: seq<Order>, query: string) returns (r: Option<nat>)
    ensures r.Some? ==> r.value < |orders| && EqualIgnoringCase(orders[r.value].orderId, query)
    ensures r.Some? ==> forall j :: 0 <= j < r.value ==> !EqualIgnoringCase(orders[j].orderId, query)
    ensures r.None? ==> forall j :: 0 <= j < |orders| ==> !EqualIgnoringCase(orders[j].orderId, query)
  {
    var key := LowerStr(query);
    var i := 0;
    while i < |orders|
      invariant 0 <= i <= |orders|
      invariant forall j :: 0 <= j < i ==> !EqualIgnoringCase(orders[j].orderId, query)
    {
      LowerStrEqualIff(orders[i].orderId, query);
      if LowerStr(orders[i].orderId) == key {
        return Some(i);
      }
      i := i + 1;
    }
    return None;
  }
}

=== FILE: validation.dfy ===
/**
 The input validators. Each validator of validation.ts is one anchored regular
 expression (or a `trim`); the model evaluates the expression's pieces
 directly: a character class repeated at least n times, and the split of
 an e-mail address at its '@'.
 */
module Validation {
  import opened Wrappers
  import opened Text

  /** The bracketed character classes the validators use. */
  datatype CharClass =
    | Alphanumeric   // [a-zA-Z0-9]
    | PhoneSymbol    // [\d\s+()-]
    | NotSpaceOrAt   // [^\s@]

  predicate InClass(cls: CharClass, c: char) {
    match cls
    case Alphanumeric => IsAsciiLetter(c) || IsAsciiDigit(c)
    case PhoneSymbol => IsAsciiDigit(c) || IsWhiteSpace(c) || c == '+' || c == '(' || c == ')' || c == '-'
    case NotSpaceOrAt => !IsWhiteSpace(c) && c != '@'
  }

  ghost predicate AllInClass(cls: CharClass, s: string) {
    forall k :: 0 <= k < |s| ==> InClass(cls, s[k])
  }

  /** `^cls{n,}$`: the whole string is at least `n` characters of the class,
      consumed one repetition at a time. */
  function RepeatAtLeast(cls: CharClass, n: nat, s: string): (b: bool)
    ensures b <==> |s| >= n && AllInClass(cls, s)
  {
    if |s| == 0 then n == 0
    else InClass(cls, s[0]) && RepeatAtLeast(cls, if n == 0 then 0 else n - 1, s[1..])
  }

  // ---------------------------------------------------------------------
  // Validators
  // ---------------------------------------------------------------------

  /** isValidTrackingNumber: `length >= 6 && /^[a-zA-Z0-9]+$/`. */
  function IsValidTrackingNumber(trackingNumber: string): (b: bool)
    ensures b <==> (|trackingNumber| >= 6
      && forall k :: 0 <= k < |trackingNumber| ==> IsAsciiLetter(trackingNumber[k]) || IsAsciiDigit(trackingNumber[k]))
    ensures |trackingNumber| < 6 ==> !b
  {
    |trackingNumber| >= 6 && RepeatAtLeast(Alphanumeric, 1, trackingNumber)
  }

  /** isValidPhone: `/^[\d\s+()-]{10,}$/`. */
  function IsValidPhone(phone: string): (b: bool)
    ensures b <==> |phone| >= 10 && forall k :: 0 <= k < |phone| ==>
      (IsAsciiDigit(phone[k]) || IsWhiteSpace(phone[k])
       || phone[k] == '+' || phone[k] == '(' || phone[k] == ')' || phone[k] == '-')
  {
    RepeatAtLeast(PhoneSymbol, 10, phone)
  }

  /** The shape `/^[^\s@]+@[^\s@]+\.[^\s@]+$/` accepts: no whitespace, a single
      '@' with something before it, and after it a '.' that is neither the
      first nor the last character. */
  ghost predicate IsEmailShape(s: string) {
    && (forall k :: 0 <= k < |s| ==> !IsWhiteSpace(s[k]))
    && exists at :: 0 < at < |s| && s[at] == '@'
         && (forall k :: 0 <= k < |s| && s[k] == '@' ==> k == at)
         && exists dot :: at + 1 < dot < |s| - 1 && s[dot] == '.'
  }

  /** The domain part `[^\s@]+\.[^\s@]+`: '.' is itself in `[^\s@]`, so any
      dot strictly inside the part can serve as the separator. */
  function DomainMatches(domain: string): (b: bool)
    ensures b <==> AllInClass(NotSpaceOrAt, domain) && exists dot :: 0 < dot < |domain| - 1 && domain[dot] == '.'
  {
    RepeatAtLeast(NotSpaceOrAt, 0, domain) && |domain| >= 3 && IndexOf(domain[1..|domain| - 1], '.').Some?
  }

  /** isValidEmail. `[^\s@]+` cannot contain '@', so the local part ends at
      the first '@'. */
  function IsValidEmail(email: string): (b: bool)
    ensures b <==> IsEmailShape(email)
  {
    match IndexOf(email, '@')
    case None => false
    case Some(at) =>
      var b := RepeatAtLeast(NotSpaceOrAt, 1, email[..at]) && DomainMatches(email[at + 1..]);
      EmailShapeAt(email, at);
      b
  }

  /** The shape condition, evaluated at the first '@'. */
  lemma EmailShapeAt(email: string, at: nat)
    requires at < |email| && email[at] == '@' && forall k :: 0 <= k < at ==> email[k] != '@'
    ensures IsEmailShape(email) <==>
      RepeatAtLeast(NotSpaceOrAt, 1, email[..at]) && DomainMatches(email[at + 1..])
  {
    var local, domain := email[..at], email[at + 1..];
    if RepeatAtLeast(NotSpaceOrAt, 1, local) && DomainMatches(domain) {
      var d :| 0 < d < |domain| - 1 && domain[d] == '.';
      assert email[at + 1 + d] == '.';
      forall k | 0 <= k < |email| ensures !IsWhiteSpace(email[k]) {
        if k < at {
          assert email[k] == local[k];
        } else if k > at {
          assert email[k] == domain[k - at - 1];
        }
      }
      assert forall k :: 0 <= k < |email| && email[k] == '@' ==> k == at;
    }
    if IsEmailShape(email) {
      var a :| 0 < a < |email| && email[a] == '@'
         && (forall k :: 0 <= k < |email| && email[k] == '@' ==> k == a)
         && exists dot :: a + 1 < dot < |email| - 1 && email[dot] == '.';
      assert a == at;
      var dot :| at + 1 < dot < |email| - 1 && email[dot] == '.';
      assert domain[dot - at - 1] == '.';
    }
  }

  /** A string with two '@' is never a valid address. */
  lemma EmailRejectsTwoAts(email: string, i: nat, j: nat)
    requires i < j < |email| && email[i] == '@' && email[j] == '@'
    ensures !IsValidEmail(email)
  {
  }

  /** The regular expression read as a decomposition: a valid address is
      `local + "@" + host + "." + tld` with all three parts non-empty and
      free of whitespace and '@'. */
  ghost predicate EmailParts(email: string, local: string, host: string, tld: string) {
    && email == local + "@" + host + "." + tld
    && |local| > 0 && |host| > 0 && |tld| > 0
    && AllInClass(NotSpaceOrAt, local) && AllInClass(NotSpaceOrAt, host) && AllInClass(NotSpaceOrAt, tld)
  }

  /** The characters of a decomposed address, position by position. */
  lemma EmailPartsIndexing(email: string, local: string, host: string, tld: string, k: nat)
    requires email == local + "@" + host + "." + tld && k < |email|
    ensures k < |local| ==> email[k] == local[k]
    ensures k == |local| ==> email[k] == '@'
    ensures |local| < k < |local| + 1 + |host| ==> email[k] == host[k - |local| - 1]
    ensures k == |local| + 1 + |host| ==> email[k] == '.'
    ensures |local| + 1 + |host| < k ==> email[k] == tld[k - |local| - |host| - 2]
  {
  }

  lemma EmailFromParts(email: string, local: string, host: string, tld: string)
    requires EmailParts(email, local, host, tld)
    ensures IsValidEmail(email)
  {
    var at, dot := |local|, |local| + 1 + |host|;
    EmailPartsIndexing(email, local, host, tld, at);
    EmailPartsIndexing(email, local, host, tld, dot);
    forall k | 0 <= k < |email| && k != at ensures InClass(NotSpaceOrAt, email[k]) {
      EmailPartsIndexing(email, local, host, tld, k);
    }
    assert forall k :: 0 <= k < |email| && email[k] == '@' ==> k == at;
    assert IsEmailShape(email);
  }

  /** The positions of the '@' and of a separating '.' in a valid address. */
  lemma EmailSeparators(email: string) returns (at: nat, dot: nat)
    requires IsValidEmail(email)
    ensures 0 < at && at + 1 < dot < |email| - 1
    ensures email[at] == '@' && email[dot] == '.'
    ensures forall k :: 0 <= k < |email| && k != at ==> InClass(NotSpaceOrAt, email[k])
  {
    at :| 0 < at < |email| && email[at] == '@'
       && (forall k :: 0 <= k < |email| && email[k] == '@' ==> k == at)
       && exists dot :: at + 1 < dot < |email| - 1 && email[dot] == '.';
    dot :| at + 1 < dot < |email| - 1 && email[dot] == '.';
  }

  /** A slice of characters that are all in a class is in the class. */
  lemma SliceInClass(cls: CharClass, s: string, i: nat, j: nat)
    requires i <= j <= |s|
    requires forall k :: i <= k < j ==> InClass(cls, s[k])
    ensures AllInClass(cls, s[i..j])
  {
    forall k | 0 <= k < j - i ensures InClass(cls, s[i..j][k]) {
      assert s[i..j][k] == s[i + k];
    }
  }

  lemma PartsOfEmail(email: string) returns (local: string, host: string, tld: string)
    requires IsValidEmail(email)
    ensures EmailParts(email, local, host, tld)
  {
    var at, dot := EmailSeparators(email);
    local, host, tld := email[..at], email[at + 1..dot], email[dot + 1..];
    SliceInClass(NotSpaceOrAt, email, 0, at);
    SliceInClass(NotSpaceOrAt, email, at + 1, dot);
    SliceInClass(NotSpaceOrAt, email, dot + 1, |email|);
    assert email[0..at] == local && email[dot + 1..|email|] == tld;
    assert email == local + "@" + host + "." + tld;
  }

  lemma EmailIsDecomposition(email: string)
    ensures IsValidEmail(email) <==> exists local, host, tld :: EmailParts(email, local, host, tld)
  {
    if IsValidEmail(email) {
      var local, host, tld := PartsOfEmail(email);
    }
    if exists local, host, tld :: EmailParts(email, local, host, tld) {
      var local, host, tld :| EmailParts(email, local, host, tld);
      EmailFromParts(email, local, host, tld);
    }
  }

  // ---------------------------------------------------------------------
  // validateRequired
  // ---------------------------------------------------------------------

  /** The values validateRequired distinguishes. */
  datatype JsValue = Undefined | Null | JsString(s: string) | OtherValue

  /** `s.trimStart()`. */
  function TrimStart(s: string): (r: string)
    ensures |r| <= |s| && r == s[|s| - |r|..]
    ensures forall k :: 0 <= k < |s| - |r| ==> IsWhiteSpace(s[k])
    ensures |r| > 0 ==> !IsWhiteSpace(r[0])
  {
    if |s| > 0 && IsWhiteSpace(s[0]) then
      var r := TrimStart(s[1..]);
      assert s[1..][|s| - 1 - |r|..] == s[|s| - |r|..];
      assert forall k :: 1 <= k < |s| - |r| ==> s[k] == s[1..][k - 1];
      r
    else s
  }

  /** `s.trimEnd()`. */
  function TrimEnd(s: string): (r: string)
    ensures |r| <= |s| && r == s[..|r|]
    ensures forall k :: |r| <= k < |s| ==> IsWhiteSpace(s[k])
    ensures |r| > 0 ==> !IsWhiteSpace(r[|r| - 1])
  {
    if |s| > 0 && IsWhiteSpace(s[|s| - 1]) then TrimEnd(s[..|s| - 1]) else s
  }

  /** `r` is `s[i..i + |r|]`, everything around it in `s` is whitespace,
      and `r` neither starts nor ends with whitespace. */
  ghost predicate TrimmedAt(s: string, r: string, i: int) {
    0 <= i && i + |r| <= |s| && r == s[i..i + |r|]
    && (forall k :: 0 <= k < i ==> IsWhiteSpace(s[k]))
    && (forall k :: i + |r| <= k < |s| ==> IsWhiteSpace(s[k]))
    && (|r| > 0 ==> !IsWhiteSpace(r[0]) && !IsWhiteSpace(r[|r| - 1]))
  }

  /** `s.trim()`: the slice of `s` left when the leading and trailing
      whitespace is removed. */
  function Trim(s: string): (r: string)
    ensures exists i :: TrimmedAt(s, r, i)
  {
    var t := TrimStart(s);
    var r := TrimEnd(t);
    TrimStartThenEnd(s, t, r);
    r
  }

  /** The two halves of Trim compose: trimEnd after trimStart leaves the
      slice TrimmedAt describes. */
  lemma TrimStartThenEnd(s: string, t: string, r: string)
    requires |t| <= |s| && t == s[|s| - |t|..]
    requires forall k :: 0 <= k < |s| - |t| ==> IsWhiteSpace(s[k])
    requires |t| > 0 ==> !IsWhiteSpace(t[0])
    requires |r| <= |t| && r == t[..|r|]
    requires forall k :: |r| <= k < |t| ==> IsWhiteSpace(t[k])
    requires |r| > 0 ==> !IsWhiteSpace(r[|r| - 1])
    ensures TrimmedAt(s, r, |s| - |t|)
  {
    var i := |s| - |t|;
    assert r == s[i..i + |r|];
    forall k | i + |r| <= k < |s| ensures IsWhiteSpace(s[k]) {
      assert s[k] == t[k - i];
    }
    if |r| > 0 {
      assert r[0] == t[0];
    }
  }

  /** Trimming leaves nothing exactly when every character is whitespace. */
  lemma TrimEmptyIff(s: string)
    ensures |Trim(s)| == 0 <==> forall k :: 0 <= k < |s| ==> IsWhiteSpace(s[k])
  {
    var t := TrimStart(s);
    if |Trim(s)| > 0 {
      // the first character left by trimStart is a character of s
      assert |t| == 0 || t[0] == s[|s| - |t|];
    }
  }

  /** validateRequired: a string must have a non-whitespace character; any
      other value must be neither null nor undefined. */
  function ValidateRequired(value: JsValue): (b: bool)
    ensures value.JsString? ==> (b <==> exists k :: 0 <= k < |value.s| && !IsWhiteSpace(value.s[k]))
    ensures !value.JsString? ==> (b <==> !value.Null? && !value.Undefined?)
  {
    match value
    case JsString(s) =>
      TrimEmptyIff(s);
      |Trim(s)| > 0
    case Null => false
    case Undefined => false
    case OtherValue => true
  }
}

=== FILE: wrappers.dfy ===
/** The optional-value datatype used for JavaScript's `null` / `undefined` results. */
module Wrappers {

  datatype Option<+T> = None | Some(value: T)
}
